=== FILE: README.md ===
# twitterspy command processor, modelled in Dafny

This project models the synchronous decision layer of twitterspy's
`CommandProcessor` (`twitterspy/commands.rb`): the Jabber bot that lets a
user track Summize searches and use Twitter from an instant-messaging
client. Handling one message is modelled as a pure function. It takes the
loaded command table, the user record, the command word and the optional
argument. It returns the record after the handler's writes together with
the handler's effects, in order:

- replies to the sender;
- single-field writes to the record;
- the availability notification;
- tasks pushed onto `IN_QUEUE` or `TWIT_QUEUE`;
- an exception escaping the handler.

Work that talks to Twitter or Summize is only described when it is queued.
A separate module runs such a task later, against the record the task
sees when it runs. Each answer the remote service could give is a parameter.

Modules, in dependency order:

- `Options`: `Option`, `Result`, `Outcome`.
- `Text`: Ruby's `strip`, `blank?`, ASCII `downcase` and `split(/\s+/, 2)`, `Array#join`, and integer printing.
- `Ordering`: `String#<=>` and `Array#sort` on strings.
- `CommandTable`: the `Help` class and `CommandDefiner` (`cmd`, `help_text`, `all_cmds`), the class body's declarations in source order, and the `help` listing and lookup.
- `Users`: the user record, the writes the handlers make, `logged_in?`.
- `Effects`: effects, queues, tasks, and applying writes to a record.
- `Commands`: `with_arg`, `twitter_call`, `change_user_active_state`, every handler, and `dispatch`.
- `Tasks`: the queued work as it later runs on a worker.
- `Properties`: what dispatch and the handlers promise, as lemmas.

How the properties are laid out:

- Most per-command properties are stated on the handler itself, through `Perform(user, handler)`: the handler's effects plus the record its writes leave.
- A `Dispatch…` lemma per command connects `Dispatch` on that command's name to its handler.
- `Properties.DispatchRunsHandler` does the same for every command at once.

Some behaviour of the code is modelled as written:

- `autopost` tests `arg.downcase`, not the stripped argument. An argument such as `" on"` passes the blank check and then raises (`Properties.AutopostPaddedRaises`).
- `lang` checks the length of the unstripped argument and stores it as given.
- `search` pushes its task onto `IN_QUEUE`. Queued Twitter calls go onto `TWIT_QUEUE`.
- `watch_friends` queues any non-blank value. The task refuses values other than "on" and "off".
- A Twitter task reads the password of the record it captured when it runs. If that record has no password by then, decoding it raises.
- `watch_friends on` with an empty friends timeline stores the object id of `nil` (4 under Ruby 1.8, which `nil.id` returns) before reading the missing status's text raises and the rescue apologises (`Tasks.WatchTask`).
- `watch_friends on` apologises when the timeline call fails with a `StandardError`, but its bare `rescue` does not catch Ruby 1.8's `Timeout::Error` (an `Interrupt` there), so a timed-out timeline call ends the task with the raised error and no reply (`Properties.WatchTimeoutEscapes`).

## Model

| member | source | states |
|---|---|---|
| CommandTable.Cmd | twitterspy/commands.rb:27-32 | declaring a command defines it; help is recorded only when a short text is given, and then the full help equals the short help |
| CommandTable.HelpText | twitterspy/commands.rb:34-36 | overriding the full help succeeds exactly for a command that has help, keeps its short help and every key, and fails naming the command otherwise |
| CommandTable.CmdKeepsOthers | twitterspy/commands.rb:27-32 | declaring one command leaves every other command's help entry as it was |
| CommandTable.HelpTextKeepsOthers | twitterspy/commands.rb:34-36 | overriding one command's full help leaves every other command's help entry as it was |
| CommandTable.DeclareFirst | twitterspy/commands.rb:77-137 | the first declarations define help, version, on, off and autopost; help, on and off hold their summary as both short and full help, autopost holds its summary and its long help, and version has none |
| CommandTable.DeclareTracking | twitterspy/commands.rb:139-208 | top10, track, untrack, tracks and search are defined; track and untrack hold their summary and their long help, tracks and search their summary as both, and top10 has none |
| CommandTable.DeclareAccount | twitterspy/commands.rb:210-287 | whois, twlogin, twlogout, status and post are defined; twlogin holds its summary and its long help, whois, twlogout and post their summary as both, and status has none |
| CommandTable.DeclareSocial | twitterspy/commands.rb:289-374 | follow, leave, watch_friends and lang are defined; follow and leave hold their summary as both short and full help, watch_friends and lang their summary and their long help |
| CommandTable.ClassBody | twitterspy/commands.rb:77-374 | the class body loads without any `help_text` raising, defines all nineteen commands, leaves exactly version, top10 and status without help, and gives every other command the short and full help it is declared with |
| CommandTable.LookupComplete | twitterspy/commands.rb:59-60 | a word names no command exactly when no command has that name |
| CommandTable.NameInjective | twitterspy/commands.rb:59-60 | distinct commands have distinct names, so a word selects at most one handler |
| CommandTable.ListedNames | twitterspy/commands.rb:83 | the listing's names are sorted, never repeat, and are exactly the names of the commands that have help |
| CommandTable.HelpFor | twitterspy/commands.rb:89 | the hash lookup finds an entry exactly when some command with help has that name, and returns that command's entry |
| CommandTable.HelpReply | twitterspy/commands.rb:79-97 | a blank argument gets the listing; a name with help gets "Help for `name'" and its full help; any other word gets the unknown-topic reply |
| CommandTable.UndocumentedHidden | twitterspy/commands.rb:77-98 | once loaded, every command is defined, and a command is missing from the listing exactly when it is version, top10 or status |
| CommandTable.HelpPages | twitterspy/commands.rb:88-96 | once loaded, help on version, top10 or status says the topic is unknown, and help on any other command shows the full help it is declared with (for `on`, "Help for `on'" and "Activate updates.") |
| Users.LoggedInByStrip | twitterspy/commands.rb:378-380 | a user is logged in exactly when both username and password are present and neither is blank, i.e. empty once stripped |
| Users.Apply | twitterspy/commands.rb:156-181 | a write changes only its own field: `update_attributes` sets exactly the attributes it names, tracking appends the query unless it is already tracked, untracking removes every copy of it, and jid and status never change |
| Ordering.Sort | twitterspy/commands.rb:192 | the result is sorted and is a permutation of the input |
| Ordering.SortPermutationInvariant | twitterspy/commands.rb:192 | two permutations of the same strings sort to the same sequence |
| Commands.WithArg | twitterspy/commands.rb:399-405 | refusal with the missing text exactly when the argument is nil or blank; otherwise a non-empty stripped text found in the argument after leading whitespace only |
| Commands.WithArgPadded | twitterspy/commands.rb:399-405 | a stripped text padded with whitespace on both sides reaches the continuation as exactly that text |
| Commands.TwitterCall | twitterspy/commands.rb:382-397 | the login check comes first, then the argument check, then exactly one `TWIT_QUEUE` task with the stripped argument; nothing is written |
| Commands.ChangeActiveState | twitterspy/commands.rb:407-413 | nothing happens exactly when `active` already has the target value, and the record ends with `active` at the target |
| Commands.OnOff | twitterspy/commands.rb:106-114 | at most one write, to `active` only, ending with the fixed reply; a single reply when already at the target |
| Commands.Autopost | twitterspy/commands.rb:116-129 | usage reply when blank; "on" or "off" after downcasing the raw argument writes `auto_post` and confirms; anything else raises |
| Commands.TrackCmd | twitterspy/commands.rb:156-161 | the default prompt when blank, otherwise a track write of the stripped query and a confirmation naming it |
| Commands.UntrackCmd | twitterspy/commands.rb:173-181 | the default prompt when blank; a removal and its confirmation when the stripped query is tracked; only the "Didn't stop tracking" reply when it is not |
| Commands.SearchCmd | twitterspy/commands.rb:196-208 | the default prompt when blank, otherwise one `IN_QUEUE` search task with the stripped query and no write |
| Commands.Twlogin | twitterspy/commands.rb:232-248 | the credentials prompt when blank, otherwise one `TWIT_QUEUE` login task carrying the two parts of the split stripped argument; no write |
| Commands.Logout | twitterspy/commands.rb:257-260 | after its writes no record is logged in; it writes only credentials and ends with the logged-out reply |
| Commands.Lang | twitterspy/commands.rb:348-361 | blank clears the language; a length other than two is refused without a write; otherwise the argument is stored as given |
| Commands.VersionText | twitterspy/commands.rb:100-104 | the `version` reply starts with "Running version " and the configured version on its own line and ends with the line naming where the source lives |
| Commands.Top10Lines | twitterspy/commands.rb:139-154 | the `top10` reply starts with the heading and an empty line, holds each row's "query (n watchers)" line and ends with the last row's line; with no rows it is the heading and a line break |
| Commands.StatusShows | twitterspy/commands.rb:262-273 | the `status` reply starts with the JID line, names the Twitter username when logged in and says nobody is logged in otherwise, and ends with the number of tracked topics |
| Commands.Run | twitterspy/commands.rb:77-361 | every handler ends with exactly one reply, task or exception after its writes, and writes only values that keep the record valid |
| Commands.RunWritesOnly | twitterspy/commands.rb:106-361 | each handler writes only the fields that command is responsible for |
| Commands.Unknown | twitterspy/commands.rb:62-69 | with autopost on, a non-command is handed to the post handler as "cmd arg"; otherwise it gets the three-line reply |
| Commands.Dispatch | twitterspy/commands.rb:57-71 | every message concludes with one reply, task or exception; a valid record stays valid; jid and presence never change |
| Properties.DispatchRunsHandler | twitterspy/commands.rb:57-60 | once the class body has loaded, a command word runs its own handler and the record is what its writes leave |
| Properties.UnknownIsPosted | twitterspy/commands.rb:62-63 | with autopost on, a non-command behaves exactly like `post` with the word, a space and the argument |
| Properties.UnknownIsRefused | twitterspy/commands.rb:64-68 | with autopost off, a non-command gets exactly one reply and the record is untouched |
| Properties.NotUnderstoodMentions | twitterspy/commands.rb:65-68 | that reply starts by quoting the word, then points to `help`, and ends by mentioning `help autopost` |
| Properties.DispatchOnOff | twitterspy/commands.rb:106-114 | the words on and off run the active-state change towards true and false respectively |
| Properties.OnOffIdempotent | twitterspy/commands.rb:407-413 | on/off leave `active` at the target; already there, they only reply; otherwise they write, announce and reply; repeating them only replies |
| Properties.DispatchAutopost | twitterspy/commands.rb:116-129 | the word autopost runs the autopost handler |
| Properties.AutopostParses | twitterspy/commands.rb:116-129 | blank gives only the usage reply; the four spellings of "on" and eight of "off" set `auto_post` accordingly; anything else raises and writes nothing |
| Properties.AutopostPaddedRaises | twitterspy/commands.rb:117-118 | " on" passes the blank check but raises, because the on/off test uses the unstripped argument |
| Properties.DispatchLang | twitterspy/commands.rb:348-361 | the word lang runs the lang handler |
| Properties.LangRules | twitterspy/commands.rb:348-361 | blank clears the language and says so; a length other than two leaves the record unchanged; two characters are stored exactly as given |
| Properties.CredentialsCheckedFirst | twitterspy/commands.rb:382-397 | for whois, post, follow, leave and watch_friends: the login prompt when logged out, even with a blank argument; that command's own prompt ("For whom are you looking?", …), never the login prompt, when logged in with a blank argument; otherwise one `TWIT_QUEUE` task; never a write |
| Properties.DispatchTwlogout | twitterspy/commands.rb:257-260 | the word twlogout runs the logout handler |
| Properties.TwlogoutLogsOut | twitterspy/commands.rb:257-260 | twlogout clears both credentials and confirms, after which the user is not logged in and every Twitter command only answers with the login prompt |
| Properties.DispatchTwlogin | twitterspy/commands.rb:232-248 | the word twlogin runs the twlogin handler |
| Properties.LoginWords | twitterspy/commands.rb:234 | stripping "username gap password" (padded) and splitting at the first whitespace run gives back the username and the password |
| Properties.TwloginSplits | twitterspy/commands.rb:233-235 | twlogin with a username and a password, padded, queues one login task with that username and password, inner whitespace kept |
| Properties.TwloginOneWord | twitterspy/commands.rb:233-235 | twlogin with a single word queues a login task with that username and no password |
| Properties.TwloginRoundTrip | twitterspy/commands.rb:232-245 | the login task queued by twlogin stores exactly that username and password when the service verifies them, leaving the user logged in; a failed verification changes nothing |
| Properties.LoginTaskStores | twitterspy/commands.rb:236-245 | the login task writes the credentials exactly when verification passes and a password was given; otherwise it only apologises |
| Properties.WatchValueCheckedInTask | twitterspy/commands.rb:315-334 | a logged-in watch_friends with any non-blank value is queued, and the task later refuses a value other than on/off without writing |
| Properties.WatchTaskRefuses | twitterspy/commands.rb:331-333 | the queued watch_friends task answers a value other than on/off with the refusal and writes nothing |
| Properties.LoggedOutTaskRaises | twitterspy/commands.rb:391-393 | a queued Twitter call whose record holds no password when it runs raises when decoding it |
| Properties.DispatchTrack | twitterspy/commands.rb:156-161 | the word track runs the track handler |
| Properties.DispatchUntrack | twitterspy/commands.rb:173-181 | the word untrack runs the untrack handler |
| Properties.UntrackRemoves | twitterspy/commands.rb:173-181 | afterwards the stripped query is not tracked; when it was, only it was removed and the reply confirms; when it was not, the record is unchanged and the reply says so |
| Properties.TrackUntrackRoundTrip | twitterspy/commands.rb:156-181 | tracking a new query and untracking it gives the original track list back |
| Properties.TracksTextCount | twitterspy/commands.rb:193 | the tracks reply starts with "Tracking ", followed by a run of digits that reads back as the number of tracked queries, followed by " topics" and a line break |
| Properties.TracksOrderFree | twitterspy/commands.rb:192-193 | the tracks reply does not depend on the order the queries are stored in |
| Properties.TracksListing | twitterspy/commands.rb:191-194 | tracks replies with the count and the sorted queries and changes nothing |
| Properties.HelpAnswers | twitterspy/commands.rb:77-98 | help replies with the help reply for its argument and changes nothing |
| Properties.OnlyItsFieldsChange | twitterspy/commands.rb:106-361 | a command changes no field outside those it is responsible for; the Twitter commands, help, search, twlogin and the read-only commands change nothing |
| Tasks.RunSearch | twitterspy/commands.rb:198-206 | a failing search raises; a successful one gives exactly one reply |
| Tasks.RunLogin | twitterspy/commands.rb:235-246 | the credentials are written and confirmed exactly when verification passes and a password exists; otherwise only the failure reply |
| Tasks.WhoisTask | twitterspy/commands.rb:210-230 | one reply: the apology naming the user when either lookup fails, otherwise a text that starts with "name is " |
| Tasks.PostTask | twitterspy/commands.rb:275-287 | one reply: the status link under the username the record holds when the task runs, or the failure text |
| Tasks.FriendshipTask | twitterspy/commands.rb:289-313 | one reply: follow/leave confirmation naming the user, or the failure naming the user and the error |
| Tasks.WatchTask | twitterspy/commands.rb:316-334 | "on" stores the newest timeline status id, "off" clears it, a timeline call failing with a `StandardError` only apologises, one that times out raises past the bare rescue with no write, an empty timeline stores nil's object id 4 and then apologises, any other value is refused without a write |
| Properties.WatchTimeoutEscapes | twitterspy/commands.rb:316-324 | a watch_friends on task whose timeline call times out neither writes nor replies: the timeout escapes the bare rescue |
| Tasks.RunTwitter | twitterspy/commands.rb:391-395 | the call raises exactly when the record holds no password at run time; otherwise it runs its action |
| Tasks.RunTask | twitterspy/commands.rb:391-395 | a task always has an effect, keeps a valid record valid and never changes jid, tracks or `active` |

## Left out

- The typing notification and Jabber delivery: I/O. A reply is an effect.
- Twitter and Summize calls: network and foreign libraries. Each answer a task could receive is a field of the `Remote` parameter, and creating the Twitter client is assumed not to fail.
- `top10`'s SQL query: a database call. Its rows are part of the environment.
- `version`'s configured version string: a parameter.
- Base64 encoding of the stored password: a library. The password is stored as given, and decoding a missing password raises.
- `next_scan => DateTime.now` in the login task: a clock. It is not stored.
- The queue workers and threads: concurrency. Only which queue received which task is recorded.
- Logging (`puts`, `$stdout.flush`, backtraces): output only.
- `respond_to?` also answers for public helpers such as `dispatch` and `send_msg`. The known commands are exactly the nineteen defined with `cmd`.
- Ruby's full `strip`/`downcase` character tables: only ASCII whitespace and ASCII letters are treated specially.
- `lang` counts characters, where Ruby 1.8's `String#size` counts bytes. The two differ for non-ASCII arguments.
- `user.track` and `user.untrack`: user.rb is not part of this model. Tracking is assumed to add a query not yet tracked, and untracking to remove it and report whether it was tracked.
- The order of the help hash's keys is not recorded, because its only reader sorts them.
- Properties.TwloginRoundTrip: stated for an unpadded argument. Padding is handled by `Properties.TwloginSplits`.
- Tasks.RunSearch: states the reply's shape, not the text of each search hit.
- Properties.TracksTextCount: states the first line of the tracks reply, not the sorted queries after it (`Properties.TracksOrderFree` covers their order).
- Whether a queued task sees writes made after it was queued depends on the caller passing the same user object to every dispatch; that caller is not part of this model. Each task takes the record it sees as a parameter.
- Tasks.RunAction: does not promise that every Twitter task ends with a reply. A `watch_friends on` whose timeline call times out ends with the raised timeout, because the bare `rescue` at twitterspy/commands.rb:323 does not catch Ruby 1.8's `Timeout::Error`. Interrupts other than that timeout are not modelled for any remote call.

=== FILE: commands.dfy ===
/** `CommandProcessor`: the handler of every command, the shared argument and
    credential checks, and `dispatch`. Handling a message is a pure function
    from the user record, the command word and the argument to the effects
    it has; work that talks to Twitter or Summize is queued as a task and run
    later (module `Tasks`). */
module Commands {
  import opened Options
  import opened Text
  import opened Ordering
  import opened CommandTable
  import opened Users
  import opened Effects

  /** What the handlers read besides the user: the loaded command table, the
      configured version string and the rows of the top-10 database query. */
  datatype Env = Env(reg: Registry, version: string, topTracks: seq<TopRow>)

  /** One row of the top-10 query: a tracked query and how many users track it. */
  datatype TopRow = TopRow(query: string, watchers: nat)

  const DefaultMissing := "Please supply a summize query"
  const NotLoggedInText := "I don't know your username or password.  Use twlogin to set creds."
  const AutopostUsage := "Use 'off' or 'on' to disable or enable autoposting"
  const AutopostInvalid := "Autopost must be set to on or off"
  const LangInvalid := "Language should be a 2-digit country code."
  const LoggedOutText := "You have been logged out."
  const ActiveText := "Marked you active."
  const InactiveText := "Marked you inactive."
  const AutopostOnText := "Autoposting is now on"
  const AutopostOffText := "Autoposting is now off"
  const LoginUsage := "You must supply a username and password"
  const LangUnsetText := "Unset your language."
  const LangSetPrefix := "Set your language to "
  const StoppedPrefix := "Stopped tracking "
  const NotStoppedPrefix := "Didn't stop tracking "
  const NotStoppedSuffix := " (are you sure you were tracking it?)"
  const WhoisMissing := "For whom are you looking?"
  const PostMissing := "You need to actually tell me what to post"
  const FollowMissing := "Whom would you like to follow?"
  const LeaveMissing := "Whom would you like to leave?"
  const WatchMissing := "Please specify 'on' or 'off'"
  const SourceLine := "For the source and more info, see http://github.com/dustin/twitterspy"
  const TopHeading := "Top 10 most tracked topics:"
  const NotLoggedInStatus := "You're not logged in for twitter API services."
  const LoggedInPrefix := "Logged in for twitter API services as "
  const TrackingCountPrefix := "You are currently tracking "
  const StatusJid := "Jid:  "
  const StatusPresence := "Jabber Status:  "
  const StatusState := "TwitterSpy state:  "
  const UnknownPrefix := "I don't understand '"
  const SendHelpLine := "Send 'help' for known commands."
  const AutopostHint := "If you intended this to be posted, see 'help autopost'"

  /** A handler's effects are a run of writes and notifications closed by
      exactly one reply, queued task or exception. */
  predicate Concludes(effects: seq<Effect>) {
    && |effects| > 0
    && (effects[|effects| - 1].Reply? || effects[|effects| - 1].Enqueue? || effects[|effects| - 1].Raise?)
    && forall i :: 0 <= i < |effects| - 1 ==> effects[i].Write? || effects[i].AvailabilityChanged?
  }

  /** A single reply, and nothing else. */
  function Respond(text: string): (r: seq<Effect>)
    ensures r == [Reply(text)]
    ensures Concludes(r) && ValidWrites(r) && WritesOnly(r, {})
  {
    [Reply(text)]
  }

  /** One write confirmed by a reply. */
  function Confirm(u: Update, text: string): (r: seq<Effect>)
    ensures r == [Write(u), Reply(text)]
    ensures Concludes(r) && WritesOnly(r, {FieldOf(u)})
    ensures ValidUpdate(u) ==> ValidWrites(r)
  {
    [Write(u), Reply(text)]
  }

  /** A single task pushed onto a queue, and nothing else. */
  function Defer(q: Queue, task: Task): (r: seq<Effect>)
    ensures r == [Enqueue(q, task)]
    ensures Concludes(r) && ValidWrites(r) && WritesOnly(r, {})
  {
    [Enqueue(q, task)]
  }

  // ---------------------------------------------------------------------
  // Shared checks

  /** `with_arg`: a missing or blank argument is refused with `missing`;
      otherwise the handler continues with the argument stripped. */
  function WithArg(arg: Option<string>, missing: string): (r: Result<string, string>)
    ensures r.Failure? <==> IsBlankOpt(arg)
    ensures r.Failure? ==> r.error == missing
    ensures r.Success? ==> r.value != [] && IsStripped(r.value) && arg.Some?
    ensures r.Success? ==> exists lead: nat :: OccursAt(r.value, arg.value, lead) && IsBlank(arg.value[..lead])
  {
    if arg.None? || Strip(arg.value) == "" then Failure(missing)
    else
      var a := Strip(arg.value);
      assert OccursAt(a, arg.value, LeadingSpaces(arg.value));
      Success(a)
  }

  /** An argument made of a stripped text padded with whitespace reaches the
      handler as that text. */
  lemma WithArgPadded(p: string, t: string, q: string, missing: string)
    requires IsBlank(p) && IsBlank(q) && t != [] && IsStripped(t)
    ensures WithArg(Some(p + t + q), missing) == Success(t)
  {
    StripPadded(p, t, q);
  }

  /** `twitter_call`: a user who is not logged in is told so, whatever the
      argument; a logged-in user with a blank argument gets `missing`; any
      other call queues exactly one Twitter task carrying the stripped argument. */
  function TwitterCall(user: User, arg: Option<string>, missing: string, action: TwitterAction): (r: seq<Effect>)
    ensures Concludes(r) && ValidWrites(r) && WritesOnly(r, {})
    ensures !LoggedIn(user) ==> r == [Reply(NotLoggedInText)]
    ensures LoggedIn(user) && IsBlankOpt(arg) ==> r == [Reply(missing)]
    ensures LoggedIn(user) && !IsBlankOpt(arg) ==>
              r == [Enqueue(TwitQueue, TwitterTask(action, Strip(arg.value)))]
  {
    if !LoggedIn(user) then Respond(NotLoggedInText)
    else
      match WithArg(arg, missing)
      case Failure(m) => Respond(m)
      case Success(a) => Defer(TwitQueue, TwitterTask(action, a))
  }

  /** `change_user_active_state`: writes and announces the new state only when
      it differs from the current one. */
  function ChangeActiveState(user: User, to: bool): (r: seq<Effect>)
    ensures user.active == to <==> r == []
    ensures ApplyWrites(user, r) == user.(active := to)
  {
    if user.active != to then
      var r := [Write(SetActive(to)), AvailabilityChanged];
      assert r == [Write(r[0].update), r[1]];
      ApplyWriteThen(user, r[0].update, r[1]);
      r
    else []
  }

  // ---------------------------------------------------------------------
  // Handlers

  /** Effects without writes appended after others leave the record where
      the others left it. */
  lemma {:induction false} AppendNoWrites(user: User, a: seq<Effect>, b: seq<Effect>)
    requires forall i :: 0 <= i < |b| ==> !b[i].Write?
    ensures ApplyWrites(user, a + b) == ApplyWrites(user, a)
    decreases |a|
  {
    if |a| == 0 {
      assert a + b == b;
      NoWritesKeepUser(user, b);
    } else {
      var next := if a[0].Write? then Apply(user, a[0].update) else user;
      assert (a + b)[1..] == a[1..] + b;
      AppendNoWrites(next, a[1..], b);
    }
  }

  /** `on` and `off`. */
  function OnOff(user: User, to: bool): (r: seq<Effect>)
    ensures Concludes(r) && ValidWrites(r) && WritesOnly(r, {ActiveField})
    ensures r[|r| - 1] == Reply(if to then ActiveText else InactiveText)
    ensures user.active == to ==> |r| == 1
    ensures ApplyWrites(user, r) == user.(active := to)
  {
    var change := ChangeActiveState(user, to);
    var r := change + [Reply(if to then ActiveText else InactiveText)];
    AppendNoWrites(user, change, [r[|r| - 1]]);
    r
  }

  /** `autopost`. The blank check uses the argument, but the on/off test
      lower-cases the argument as given, not the stripped one. */
  function Autopost(arg: Option<string>): (r: seq<Effect>)
    ensures Concludes(r) && ValidWrites(r) && WritesOnly(r, {AutoPostField})
    ensures IsBlankOpt(arg) ==> r == [Reply(AutopostUsage)]
    ensures !IsBlankOpt(arg) && Downcase(arg.value) == "on" ==>
              r == [Write(SetAutoPost(true)), Reply(AutopostOnText)]
    ensures !IsBlankOpt(arg) && Downcase(arg.value) == "off" ==>
              r == [Write(SetAutoPost(false)), Reply(AutopostOffText)]
    ensures !IsBlankOpt(arg) && Downcase(arg.value) !in {"on", "off"} ==> r == [Raise(AutopostInvalid)]
  {
    match WithArg(arg, AutopostUsage)
    case Failure(m) => Respond(m)
    case Success(_) =>
      var v := Downcase(arg.value);
      if v == "on" then Confirm(SetAutoPost(true), AutopostOnText)
      else if v == "off" then Confirm(SetAutoPost(false), AutopostOffText)
      else [Raise(AutopostInvalid)]
  }

  /** `track`: hands the stripped query to the record and confirms it. */
  function TrackCmd(arg: Option<string>): (r: seq<Effect>)
    ensures Concludes(r) && ValidWrites(r) && WritesOnly(r, {TracksField})
    ensures IsBlankOpt(arg) ==> r == [Reply(DefaultMissing)]
    ensures !IsBlankOpt(arg) ==> r == [Write(AddTrack(Strip(arg.value))), Reply("Tracking " + Strip(arg.value))]
  {
    match WithArg(arg, DefaultMissing)
    case Failure(m) => Respond(m)
    case Success(a) => Confirm(AddTrack(a), "Tracking " + a)
  }

  function UntrackedText(a: string): string {
    StoppedPrefix + a
  }

  function NotUntrackedText(a: string): string {
    NotStoppedPrefix + a + NotStoppedSuffix
  }

  /** `untrack`: removes the stripped query when it is tracked, and says
      whether it was. */
  function UntrackCmd(user: User, arg: Option<string>): (r: seq<Effect>)
    ensures Concludes(r) && ValidWrites(r) && WritesOnly(r, {TracksField})
    ensures IsBlankOpt(arg) ==> r == [Reply(DefaultMissing)]
    ensures !IsBlankOpt(arg) && Strip(arg.value) in user.tracks ==>
              r == [Write(RemoveTrack(Strip(arg.value))), Reply(UntrackedText(Strip(arg.value)))]
    ensures !IsBlankOpt(arg) && Strip(arg.value) !in user.tracks ==>
              r == [Reply(NotUntrackedText(Strip(arg.value)))]
  {
    match WithArg(arg, DefaultMissing)
    case Failure(m) => Respond(m)
    case Success(a) =>
      if a in user.tracks then Confirm(RemoveTrack(a), UntrackedText(a))
      else Respond(NotUntrackedText(a))
  }

  /** The reply of `tracks`: the count, then the queries sorted, one per line. */
  function TracksText(tracks: seq<string>): string {
    var sorted := Sort(tracks);
    "Tracking " + NatToString(|tracks|) + " topics\n" + Join(sorted, "\n")
  }

  /** `search`: queues the stripped query on the input queue. */
  function SearchCmd(arg: Option<string>): (r: seq<Effect>)
    ensures Concludes(r) && ValidWrites(r) && WritesOnly(r, {})
    ensures IsBlankOpt(arg) ==> r == [Reply(DefaultMissing)]
    ensures !IsBlankOpt(arg) ==> r == [Enqueue(InQueue, SearchTask(Strip(arg.value)))]
  {
    match WithArg(arg, DefaultMissing)
    case Failure(m) => Respond(m)
    case Success(q) => Defer(InQueue, SearchTask(q))
  }

  /** `twlogin`: splits the stripped argument at its first whitespace run into
      a username and the rest as the password (absent for a single word) and
      queues the verification; the record is not touched. */
  function Twlogin(arg: Option<string>): (r: seq<Effect>)
    ensures Concludes(r) && ValidWrites(r) && WritesOnly(r, {})
    ensures IsBlankOpt(arg) ==> r == [Reply(LoginUsage)]
    ensures !IsBlankOpt(arg) ==>
              var split := SplitOnce(Strip(Strip(arg.value)));
              r == [Enqueue(TwitQueue, LoginTask(split.0, split.1))]
  {
    match WithArg(arg, LoginUsage)
    case Failure(m) => Respond(m)
    case Success(up) =>
      var (u, p) := SplitOnce(Strip(up));
      Defer(TwitQueue, LoginTask(u, p))
  }

  /** `twlogout`: forgets both credentials. */
  function Logout(): (r: seq<Effect>)
    ensures forall user :: !LoggedIn(ApplyWrites(user, r))
    ensures Concludes(r) && ValidWrites(r) && WritesOnly(r, {CredentialsField}) && r[|r| - 1] == Reply(LoggedOutText)
  {
    var r := Confirm(SetCredentials(None, None), LoggedOutText);
    forall user ensures ApplyWrites(user, r) == user.(username := None, password := None) {
      ApplyWriteThen(user, SetCredentials(None, None), Reply(LoggedOutText));
    }
    r
  }

  /** The reply of `status`. */
  function StatusText(user: User): string {
    Join([ StatusJid + user.jid,
           StatusPresence + user.status,
           StatusState + (if user.active then "Active" else "Not Active"),
           if LoggedIn(user) then LoggedInPrefix + user.username.value
           else NotLoggedInStatus,
           TrackingCountPrefix + NatToString(|user.tracks|) + " topics." ], "\n")
  }

  /** The reply of `status` starts with the user's JID, shows the Twitter
      username for a logged-in user and says that nobody is logged in
      otherwise, and ends with the number of tracked queries. */
  lemma StatusShows(user: User)
    ensures var text := StatusText(user);
            && OccursAt(StatusJid + user.jid + "\n", text, 0)
            && (LoggedIn(user) ==> Contains(LoggedInPrefix + user.username.value, text))
            && (!LoggedIn(user) ==> Contains(NotLoggedInStatus, text))
            && EndsWith(TrackingCountPrefix + NatToString(|user.tracks|) + " topics.", text)
  {
    var parts := [ StatusJid + user.jid,
                   StatusPresence + user.status,
                   StatusState + (if user.active then "Active" else "Not Active"),
                   if LoggedIn(user) then LoggedInPrefix + user.username.value
                   else NotLoggedInStatus,
                   TrackingCountPrefix + NatToString(|user.tracks|) + " topics." ];
    assert StatusText(user) == Join(parts, "\n");
    JoinStarts(parts, "\n");
    JoinHasParts(parts, "\n", 3);
    JoinEnds(parts, "\n");
  }

  const VersionPrefix := "Running version "

  /** The reply of `version`: the running version on the first line, then
      where the source lives. */
  function VersionText(version: string): (text: string)
    ensures OccursAt(VersionPrefix + version + "\n", text, 0)
    ensures EndsWith(SourceLine, text)
  {
    var parts := [VersionPrefix + version, SourceLine];
    JoinStarts(parts, "\n");
    JoinEnds(parts, "\n");
    Join(parts, "\n")
  }

  /** One line of the `top10` reply. */
  function TopLine(row: TopRow): string {
    row.query + " (" + NatToString(row.watchers) + " watchers)"
  }

  /** The reply of `top10`: a heading, an empty line, then one line per row. */
  function Top10Text(rows: seq<TopRow>): (text: string)
  {
    Join([TopHeading, ""] + seq(|rows|, i requires 0 <= i < |rows| => TopLine(rows[i])), "\n")
  }

  /** Every row has its line in the reply of `top10`. */
  lemma Top10HasRow(rows: seq<TopRow>, i: int)
    requires 0 <= i < |rows|
    ensures Contains(TopLine(rows[i]), Top10Text(rows))
  {
    var lines := seq(|rows|, i requires 0 <= i < |rows| => TopLine(rows[i]));
    var parts := [TopHeading, ""] + lines;
    assert Top10Text(rows) == Join(parts, "\n");
    assert parts[i + 2] == TopLine(rows[i]);
    JoinHasParts(parts, "\n", i + 2);
  }

  /** The reply of `top10` starts with the heading and an empty line, shows
      a line for every row, and ends with the last row's line; with no rows it
      is the heading and the empty line alone. */
  lemma Top10Lines(rows: seq<TopRow>)
    ensures |rows| == 0 ==> Top10Text(rows) == TopHeading + "\n"
    ensures |rows| > 0 ==> OccursAt(TopHeading + "\n\n", Top10Text(rows), 0)
    ensures forall i :: 0 <= i < |rows| ==> Contains(TopLine(rows[i]), Top10Text(rows))
    ensures |rows| > 0 ==> EndsWith(TopLine(rows[|rows| - 1]), Top10Text(rows))
  {
    var lines := seq(|rows|, i requires 0 <= i < |rows| => TopLine(rows[i]));
    var parts := [TopHeading, ""] + lines;
    assert Top10Text(rows) == Join(parts, "\n");
    if |rows| == 0 {
      assert Top10Text(rows) == TopHeading + "\n" by {
        assert parts == [TopHeading, ""];
        assert Join(parts[1..], "\n") == "";
      }
    } else {
      assert OccursAt(TopHeading + "\n\n", Top10Text(rows), 0) by {
        Top10Heading(parts);
      }
      assert EndsWith(TopLine(rows[|rows| - 1]), Top10Text(rows)) by {
        assert parts[|parts| - 1] == TopLine(rows[|rows| - 1]);
        JoinEnds(parts, "\n");
      }
      forall i | 0 <= i < |rows| ensures Contains(TopLine(rows[i]), Top10Text(rows)) {
        Top10HasRow(rows, i);
      }
    }
  }

  /** Lines after the heading and an empty line start with the heading and
      two line breaks once joined. */
  lemma Top10Heading(parts: seq<string>)
    requires |parts| > 2 && parts[0] == TopHeading && parts[1] == ""
    ensures OccursAt(TopHeading + "\n\n", Join(parts, "\n"), 0)
  {
    var tail := Join(parts[1..], "\n");
    assert Join(parts, "\n") == TopHeading + "\n" + tail;
    assert parts[1..][0] == "";
    JoinStarts(parts[1..], "\n");
    assert |tail| >= 1 && tail[0] == '\n';
    var shown := TopHeading + "\n" + tail;
    forall j | 0 <= j < |TopHeading| + 2 ensures shown[j] == (TopHeading + "\n\n")[j] {
      if j == |TopHeading| + 1 {
        assert shown[j] == tail[0];
      }
    }
    assert shown[..|TopHeading| + 2] == TopHeading + "\n\n";
  }

  /** `lang`: a blank argument counts as none and clears the language; an
      argument of any length but two is refused; otherwise the argument is
      stored exactly as given, without stripping. */
  function Lang(arg: Option<string>): (r: seq<Effect>)
    ensures Concludes(r) && ValidWrites(r) && WritesOnly(r, {LanguageField})
    ensures IsBlankOpt(arg) ==> r == [Write(SetLanguage(None)), Reply(LangUnsetText)]
    ensures !IsBlankOpt(arg) && |arg.value| != 2 ==> r == [Reply(LangInvalid)]
    ensures !IsBlankOpt(arg) && |arg.value| == 2 ==>
              r == [Write(SetLanguage(arg)), Reply(LangSetPrefix + arg.value)]
  {
    var a := if arg.Some? && Strip(arg.value) == "" then None else arg;
    if a.Some? && |a.value| != 2 then Respond(LangInvalid)
    else Confirm(SetLanguage(a), if a.Some? then LangSetPrefix + a.value else LangUnsetText)
  }

  // ---------------------------------------------------------------------
  // The command table and dispatch

  /** The fields each command is responsible for. */
  function Writable(c: Command): set<Field> {
    match c
    case On => {ActiveField}
    case Off => {ActiveField}
    case Autopost => {AutoPostField}
    case Track => {TracksField}
    case Untrack => {TracksField}
    case Twlogout => {CredentialsField}
    case Lang => {LanguageField}
    case _ => {}
  }

  /** The effects of a known command: the method `cmd` defined for it. */
  function Run(env: Env, c: Command, user: User, arg: Option<string>): (r: seq<Effect>)
    ensures Concludes(r)
    ensures ValidWrites(r)
  {
    match c
    case HelpCmd => Respond(HelpReply(env.reg, arg))
    case Version => Respond(VersionText(env.version))
    case On => OnOff(user, true)
    case Off => OnOff(user, false)
    case Autopost => Autopost(arg)
    case Top10 => Respond(Top10Text(env.topTracks))
    case Track => TrackCmd(arg)
    case Untrack => UntrackCmd(user, arg)
    case Tracks => Respond(TracksText(user.tracks))
    case Search => SearchCmd(arg)
    case Whois => TwitterCall(user, arg, WhoisMissing, LookUpUser)
    case Twlogin => Twlogin(arg)
    case Twlogout => Logout()
    case Status => Respond(StatusText(user))
    case Post => TwitterCall(user, arg, PostMissing, PostStatus)
    case Follow => TwitterCall(user, arg, FollowMissing, CreateFriendship)
    case Leave => TwitterCall(user, arg, LeaveMissing, DestroyFriendship)
    case WatchFriends => TwitterCall(user, arg, WatchMissing, WatchTimeline)
    case Lang => Lang(arg)
  }

  /** Each command writes only the fields it is responsible for. */
  lemma RunWritesOnly(env: Env, c: Command, user: User, arg: Option<string>)
    ensures WritesOnly(Run(env, c, user, arg), Writable(c))
  {
    match c
    case On =>
    case Off =>
    case Autopost =>
    case Track =>
    case Untrack =>
    case Twlogout =>
    case Lang =>
    case _ =>
  }

  /** The reply to a word that is not a command while autopost is off. */
  function NotUnderstood(cmd: string): string {
    Join([UnknownPrefix + cmd + "'.", SendHelpLine, AutopostHint], "\n")
  }

  /** `dispatch`: a defined command runs; any other word is posted as
      `"cmd arg"` when the user has autopost on, and is otherwise refused with a reply
      that points the user to `help`. */
  function Dispatch(env: Env, user: User, cmd: string, arg: Option<string>): (r: Step)
    ensures Concludes(r.effects)
    ensures ValidUser(user) ==> ValidUser(r.user)
    ensures r.user.jid == user.jid && r.user.status == user.status
  {
    var effects :=
      match Lookup(cmd)
      case Some(c) =>
        if c in env.reg.defined then Run(env, c, user, arg)
        else Unknown(env, user, cmd, arg)
      case None => Unknown(env, user, cmd, arg);
    assert ValidUser(user) ==> ValidUser(ApplyWrites(user, effects)) by {
      if ValidUser(user) { ApplyWritesKeepsValid(user, effects); }
    }
    FieldsKept(user, effects);
    Perform(user, effects)
  }

  /** The handling of a word that names no defined command. */
  function Unknown(env: Env, user: User, cmd: string, arg: Option<string>): (r: seq<Effect>)
    ensures Concludes(r) && ValidWrites(r)
    ensures !user.autoPost ==> r == [Reply(NotUnderstood(cmd))]
    ensures user.autoPost ==> r == TwitterCall(user, Some(cmd + " " + arg.GetOr("")), PostMissing, PostStatus)
  {
    if user.autoPost then TwitterCall(user, Some(cmd + " " + arg.GetOr("")), PostMissing, PostStatus)
    else [Reply(NotUnderstood(cmd))]
  }

  /** No command writes the Jabber identity or presence of the user. */
  lemma {:induction false} FieldsKept(user: User, effects: seq<Effect>)
    ensures ApplyWrites(user, effects).jid == user.jid
    ensures ApplyWrites(user, effects).status == user.status
    decreases |effects|
  {
    if |effects| > 0 {
      var next := if effects[0].Write? then Apply(user, effects[0].update) else user;
      FieldsKept(next, effects[1..]);
    }
  }
}

=== FILE: effects.dfy ===
/** What handling one message does, as data: replies to the sender, writes to
    the user record, the availability notification, work pushed onto one of
    the two work queues, and an exception escaping the handler. */
module Effects {
  import opened Options
  import opened Users

  /** `IN_QUEUE` (search) and `TWIT_QUEUE` (calls made with the user's credentials). */
  datatype Queue = InQueue | TwitQueue

  /** What a queued Twitter call does with its argument. */
  datatype TwitterAction = LookUpUser | PostStatus | CreateFriendship | DestroyFriendship | WatchTimeline

  /** A unit of deferred work, with the data captured when it was queued. */
  datatype Task =
    | SearchTask(query: string)
    | LoginTask(username: string, password: Option<string>)
    | TwitterTask(action: TwitterAction, arg: string)

  datatype Effect =
    | Reply(text: string)
    | Write(update: Update)
    | AvailabilityChanged
    | Enqueue(queue: Queue, task: Task)
    | Raise(message: string)

  /** A record and the effects that produced it from the record before. */
  datatype Step = Step(user: User, effects: seq<Effect>)

  /** The record after the writes among `effects`, in order. */
  function ApplyWrites(user: User, effects: seq<Effect>): User
    decreases |effects|
  {
    if |effects| == 0 then user
    else
      var next := if effects[0].Write? then Apply(user, effects[0].update) else user;
      ApplyWrites(next, effects[1..])
  }

  /** Writes apply front to back. */
  lemma ApplyWritesCons(user: User, e: Effect, rest: seq<Effect>)
    ensures ApplyWrites(user, [e] + rest) == ApplyWrites(if e.Write? then Apply(user, e.update) else user, rest)
  {
    assert ([e] + rest)[1..] == rest;
  }

  /** A write followed by an effect that is not one leaves the record as
      that write alone does. */
  lemma ApplyWriteThen(user: User, u: Update, e: Effect)
    requires !e.Write?
    ensures ApplyWrites(user, [Write(u), e]) == Apply(user, u)
  {
    ApplyWritesCons(user, Write(u), [e]);
    ApplyWritesCons(Apply(user, u), e, []);
    assert [Write(u)] + [e] == [Write(u), e];
    assert [e] + [] == [e];
  }

  /** The handler's effects together with the record they leave. */
  function Perform(user: User, effects: seq<Effect>): (r: Step)
    ensures r.effects == effects
    ensures (forall i :: 0 <= i < |effects| ==> !effects[i].Write?) ==> r.user == user
  {
    NoWritesKeepUser(user, effects);
    Step(ApplyWrites(user, effects), effects)
  }

  lemma {:induction false} NoWritesKeepUser(user: User, effects: seq<Effect>)
    ensures (forall i :: 0 <= i < |effects| ==> !effects[i].Write?) ==> ApplyWrites(user, effects) == user
    decreases |effects|
  {
    if |effects| > 0 {
      NoWritesKeepUser(user, effects[1..]);
    }
  }

  /** Every write among `effects` changes one of `fields`. */
  predicate WritesOnly(effects: seq<Effect>, fields: set<Field>) {
    forall i :: 0 <= i < |effects| ==> effects[i].Write? ==> FieldOf(effects[i].update) in fields
  }

  /** Writes that keep a record valid. */
  predicate ValidWrites(effects: seq<Effect>) {
    forall i :: 0 <= i < |effects| ==> effects[i].Write? ==> ValidUpdate(effects[i].update)
  }

  lemma {:induction false} ApplyWritesKeepsValid(user: User, effects: seq<Effect>)
    requires ValidUser(user) && ValidWrites(effects)
    ensures ValidUser(ApplyWrites(user, effects))
    decreases |effects|
  {
    if |effects| > 0 {
      var next := if effects[0].Write? then Apply(user, effects[0].update) else user;
      if effects[0].Write? {
        ApplyKeepsValid(user, effects[0].update);
      }
      assert ValidWrites(effects[1..]) by {
        forall i | 0 <= i < |effects[1..]| && effects[1..][i].Write? ensures ValidUpdate(effects[1..][i].update) {
          assert effects[1..][i] == effects[i + 1];
        }
      }
      ApplyWritesKeepsValid(next, effects[1..]);
    }
  }
}

=== FILE: options.dfy ===
/** Failure-carrying values used across the model: Ruby's `nil`, the outcome of a
    validation step, and the success or failure of a call into a collaborator. */
module Options {

  /** A value that may be absent (Ruby `nil`). */
  datatype Option<+T> = None | Some(value: T) {

    /** The value, or `default` when absent. */
    function GetOr(default: T): T {
      match this
      case Some(v) => v
      case None => default
    }
  }

  /** Either a value or an error. */
  datatype Result<+R, +E> = Success(value: R) | Failure(error: E)

  /** Success without a value, or an error. */
  datatype Outcome<+E> = Pass | Fail(error: E)
}

=== FILE: ordering.dfy ===
/** Ruby's `String#<=>` ordering and `Array#sort` on strings, used by the help
    listing (`cmds.keys.sort`) and by the track listing (`tracks.sort`). Ruby
    compares strings byte by byte in UTF-8, which orders them the same way as
    comparing code points, as done here. */
module Ordering {

  /** `a` sorts no later than `b`: a prefix of it, or smaller at the first difference. */
  predicate Le(a: string, b: string)
    decreases |a|
  {
    |a| == 0 || (|b| > 0 && (a[0] < b[0] || (a[0] == b[0] && Le(a[1..], b[1..]))))
  }

  lemma {:induction false} LeReflexive(a: string)
    ensures Le(a, a)
    decreases |a|
  {
    if |a| > 0 {
      LeReflexive(a[1..]);
    }
  }

  lemma {:induction false} LeTotal(a: string, b: string)
    ensures Le(a, b) || Le(b, a)
    decreases |a|
  {
    if |a| > 0 && |b| > 0 && a[0] == b[0] {
      LeTotal(a[1..], b[1..]);
    }
  }

  lemma {:induction false} LeAntisymmetric(a: string, b: string)
    requires Le(a, b) && Le(b, a)
    ensures a == b
    decreases |a|
  {
    if |a| > 0 {
      LeAntisymmetric(a[1..], b[1..]);
      assert a == [a[0]] + a[1..];
      assert b == [b[0]] + b[1..];
    }
  }

  lemma {:induction false} LeTransitive(a: string, b: string, c: string)
    requires Le(a, b) && Le(b, c)
    ensures Le(a, c)
    decreases |a|
  {
    if |a| > 0 && a[0] == b[0] && b[0] == c[0] {
      LeTransitive(a[1..], b[1..], c[1..]);
    }
  }

  /** Non-decreasing under `Le`. */
  predicate Sorted(s: seq<string>) {
    forall i, j :: 0 <= i < j < |s| ==> Le(s[i], s[j])
  }

  /** No element occurs twice. */
  predicate Distinct<T(==)>(s: seq<T>) {
    forall i, j :: 0 <= i < j < |s| ==> s[i] != s[j]
  }

  /** Every element of `s` sorts no earlier than `x`. */
  predicate AllAtLeast(x: string, s: seq<string>) {
    forall i :: 0 <= i < |s| ==> Le(x, s[i])
  }

  lemma AllAtLeastByMultiset(x: string, s: seq<string>, t: seq<string>)
    requires AllAtLeast(x, s)
    requires multiset(t) <= multiset(s)
    ensures AllAtLeast(x, t)
  {
    forall i | 0 <= i < |t|
      ensures Le(x, t[i])
    {
      assert t[i] in multiset(t);
      assert t[i] in s;
    }
  }

  /** Places `x` into a sorted sequence, before the first element it does not follow. */
  function Insert(x: string, s: seq<string>): (r: seq<string>)
    requires Sorted(s)
    ensures Sorted(r)
    ensures multiset(r) == multiset(s) + multiset{x}
  {
    if |s| == 0 then [x]
    else if Le(x, s[0]) then
      assert AllAtLeast(x, s) by {
        forall i | 0 <= i < |s| ensures Le(x, s[i]) {
          if i > 0 { LeTransitive(x, s[0], s[i]); }
        }
      }
      assert s == [s[0]] + s[1..];
      [x] + s
    else
      var rest := Insert(x, s[1..]);
      assert AllAtLeast(s[0], [x] + s[1..]) by {
        LeTotal(x, s[0]);
      }
      assert multiset(rest) <= multiset([x] + s[1..]);
      AllAtLeastByMultiset(s[0], [x] + s[1..], rest);
      assert s == [s[0]] + s[1..];
      [s[0]] + rest
  }

  /** Ruby `Array#sort` on strings: a sorted permutation of the input. */
  function Sort(s: seq<string>): (r: seq<string>)
    ensures Sorted(r)
    ensures multiset(r) == multiset(s)
    ensures |r| == |s|
  {
    if |s| == 0 then []
    else
      assert s == [s[0]] + s[1..];
      Insert(s[0], Sort(s[1..]))
  }

  /** Sorting keeps exactly the same strings. */
  lemma SortSameMembers(s: seq<string>)
    ensures forall n :: n in Sort(s) <==> n in s
  {
    forall n ensures n in Sort(s) <==> n in s {
      assert n in Sort(s) <==> n in multiset(Sort(s));
      assert n in s <==> n in multiset(s);
    }
  }

  /** The head of a sorted sequence sorts no later than any of its elements. */
  lemma SortedHeadFirst(s: seq<string>, x: string)
    requires Sorted(s) && x in s
    ensures Le(s[0], x)
  {
    var i :| 0 <= i < |s| && s[i] == x;
    if i == 0 { LeReflexive(x); }
  }

  /** Two sorted sequences with the same elements start alike. */
  lemma SortedSameHead(a: seq<string>, b: seq<string>)
    requires Sorted(a) && Sorted(b) && multiset(a) == multiset(b) && |a| > 0
    ensures |b| > 0 && a[0] == b[0]
  {
    assert a[0] in multiset(b);
    assert b[0] in multiset(a);
    SortedHeadFirst(b, a[0]);
    SortedHeadFirst(a, b[0]);
    LeAntisymmetric(a[0], b[0]);
  }

  /** Removing the same head from two permutations leaves permutations. */
  lemma SameTails<T>(a: seq<T>, b: seq<T>)
    requires multiset(a) == multiset(b) && |a| > 0 && |b| > 0 && a[0] == b[0]
    ensures multiset(a[1..]) == multiset(b[1..])
  {
    assert a == [a[0]] + a[1..];
    assert b == [b[0]] + b[1..];
    assert multiset(a[1..]) == multiset(a) - multiset{a[0]};
    assert multiset(b[1..]) == multiset(b) - multiset{b[0]};
  }

  /** Two sorted sequences with the same elements are the same sequence, so
      sorting does not depend on the order of its input. */
  lemma {:induction false} SortedUnique(a: seq<string>, b: seq<string>)
    requires Sorted(a) && Sorted(b)
    requires multiset(a) == multiset(b)
    ensures a == b
    decreases |a|
  {
    if |a| > 0 {
      SortedSameHead(a, b);
      SameTails(a, b);
      assert Sorted(a[1..]) && Sorted(b[1..]);
      SortedUnique(a[1..], b[1..]);
      assert a == [a[0]] + a[1..];
      assert b == [b[0]] + b[1..];
    } else {
      assert |multiset(b)| == 0;
    }
  }

  /** Sorting a permutation gives the same result. */
  lemma SortPermutationInvariant(a: seq<string>, b: seq<string>)
    requires multiset(a) == multiset(b)
    ensures Sort(a) == Sort(b)
  {
    SortedUnique(Sort(a), Sort(b));
  }

  /** In a sequence without repeats every element occurs at most once. */
  lemma {:induction false} DistinctCounts<T>(s: seq<T>)
    requires Distinct(s)
    ensures forall x :: multiset(s)[x] <= 1
  {
    if |s| > 0 {
      assert Distinct(s[1..]) by {
        forall i, j | 0 <= i < j < |s[1..]| ensures s[1..][i] != s[1..][j] {
          assert s[1..][i] == s[i + 1] && s[1..][j] == s[j + 1];
        }
      }
      DistinctCounts(s[1..]);
      assert s[0] !in s[1..] by {
        forall i | 0 <= i < |s[1..]| ensures s[1..][i] != s[0] {
          assert s[1..][i] == s[i + 1];
        }
      }
      assert s == [s[0]] + s[1..];
      assert multiset(s) == multiset{s[0]} + multiset(s[1..]);
    }
  }

  /** An element found at two positions occurs at least twice. */
  lemma RepeatCounts<T>(t: seq<T>, i: nat, j: nat)
    requires i < j < |t| && t[i] == t[j]
    ensures multiset(t)[t[i]] >= 2
  {
    assert t == t[..j] + t[j..];
    assert t[..j][i] == t[i];
    assert t[j..][0] == t[j];
    assert multiset(t) == multiset(t[..j]) + multiset(t[j..]);
  }

  /** A permutation of a sequence without repeats has none either. */
  lemma DistinctPermutation<T>(s: seq<T>, t: seq<T>)
    requires Distinct(s) && multiset(t) == multiset(s)
    ensures Distinct(t)
  {
    DistinctCounts(s);
    forall i, j | 0 <= i < j < |t| ensures t[i] != t[j] {
      if t[i] == t[j] {
        RepeatCounts(t, i, j);
      }
    }
  }
}

=== FILE: properties.dfy ===
/** What `dispatch` promises for each kind of message, stated for a command
    table that the class body has loaded, and how the queued tasks complete
    what the handlers start. */
module Properties {
  import opened Options
  import opened Text
  import opened Ordering
  import opened CommandTable
  import opened Users
  import opened Effects
  import opened Commands
  import opened Tasks

  /** The processor after its class body has loaded. */
  predicate Ready(env: Env) {
    Loaded(env.reg)
  }

  // ---------------------------------------------------------------------
  // Dispatch

  /** A command word runs its handler, and the record ends up as the
      handler's writes leave it. */
  lemma DispatchRunsHandler(env: Env, user: User, c: Command, arg: Option<string>)
    requires Ready(env)
    ensures Dispatch(env, user, Name(c), arg) == Perform(user, Run(env, c, user, arg))
  {
    LookupName(c);
  }

  /** The handler each command word that writes selects. */
  lemma RunSelects(env: Env, c: Command, user: User, arg: Option<string>)
    ensures c == Autopost ==> Run(env, c, user, arg) == Commands.Autopost(arg)
    ensures c == Lang ==> Run(env, c, user, arg) == Commands.Lang(arg)
    ensures c == Twlogout ==> Run(env, c, user, arg) == Logout()
    ensures c == Track ==> Run(env, c, user, arg) == TrackCmd(arg)
    ensures c == Untrack ==> Run(env, c, user, arg) == UntrackCmd(user, arg)
    ensures c == On || c == Off ==> Run(env, c, user, arg) == OnOff(user, c == On)
  {
  }

  /** The handler each command word that only replies or queues selects. */
  lemma RunSelectsQuiet(env: Env, c: Command, user: User, arg: Option<string>)
    ensures c == Twlogin ==> Run(env, c, user, arg) == Commands.Twlogin(arg)
    ensures c == Tracks ==> Run(env, c, user, arg) == [Reply(TracksText(user.tracks))]
    ensures c == HelpCmd ==> Run(env, c, user, arg) == [Reply(HelpReply(env.reg, arg))]
    ensures c == Post ==> Run(env, c, user, arg) == TwitterCall(user, arg, PostMissing, PostStatus)
  {
  }

  /** With autopost on, a word that is not a command is handled exactly as
      `post` with the word, a space and the argument as its argument. */
  lemma UnknownIsPosted(env: Env, user: User, cmd: string, arg: Option<string>)
    requires Ready(env) && Lookup(cmd).None? && user.autoPost
    ensures Dispatch(env, user, cmd, arg) == Dispatch(env, user, Name(Post), Some(cmd + " " + arg.GetOr("")))
  {
    var posted := Some(cmd + " " + arg.GetOr(""));
    assert Dispatch(env, user, cmd, arg) == Perform(user, TwitterCall(user, posted, PostMissing, PostStatus));
    DispatchRunsHandler(env, user, Post, posted);
    RunSelectsQuiet(env, Post, user, posted);
  }

  /** With autopost off, a word that is not a command gets one reply and
      the record is not touched. */
  lemma UnknownIsRefused(env: Env, user: User, cmd: string, arg: Option<string>)
    requires Lookup(cmd).None? && !user.autoPost
    ensures Dispatch(env, user, cmd, arg) == Step(user, [Reply(NotUnderstood(cmd))])
  {
  }

  /** That reply quotes the word, points to `help` and ends by mentioning
      `help autopost`. */
  lemma NotUnderstoodMentions(cmd: string)
    ensures OccursAt(UnknownPrefix + cmd + "'.\n", NotUnderstood(cmd), 0)
    ensures OccursAt(SendHelpLine, NotUnderstood(cmd), |UnknownPrefix + cmd + "'.\n"|)
    ensures OccursAt(AutopostHint, NotUnderstood(cmd), |NotUnderstood(cmd)| - |AutopostHint|)
  {
    var l1 := UnknownPrefix + cmd + "'.";
    assert [l1, SendHelpLine, AutopostHint][1..] == [SendHelpLine, AutopostHint];
    assert [SendHelpLine, AutopostHint][1..] == [AutopostHint];
    assert Join([SendHelpLine, AutopostHint], "\n") == SendHelpLine + "\n" + AutopostHint;
    var rest := SendHelpLine + "\n" + AutopostHint;
    assert NotUnderstood(cmd) == (l1 + "\n") + rest;
    OccursBetween([], l1 + "\n", rest);
    OccursBetween(l1 + "\n", SendHelpLine, "\n" + AutopostHint);
    OccursBetween(l1 + "\n" + SendHelpLine + "\n", AutopostHint, []);
  }

  // ---------------------------------------------------------------------
  // on / off

  /** `on` and `off` run `OnOff` towards their own state. */
  lemma DispatchOnOff(env: Env, user: User, c: Command, arg: Option<string>)
    requires Ready(env) && (c == On || c == Off)
    ensures Dispatch(env, user, Name(c), arg) == Perform(user, OnOff(user, c == On))
  {
    DispatchRunsHandler(env, user, c, arg);
    RunSelects(env, c, user, arg);
  }

  /** `on` and `off` bring `active` to their target. When it is there
      already nothing is written and no availability change is announced;
      the reply is the same either way, so a second `on` only replies. */
  lemma OnOffIdempotent(user: User, to: bool)
    ensures var reply := Reply(if to then ActiveText else InactiveText);
            var r := Perform(user, OnOff(user, to));
            && r.user == user.(active := to)
            && (user.active == to ==> r.effects == [reply])
            && (user.active != to ==> r.effects == [Write(SetActive(to)), AvailabilityChanged, reply])
            && Perform(r.user, OnOff(r.user, to)) == Step(r.user, [reply])
  {
    var reply := Reply(if to then ActiveText else InactiveText);
    var next := user.(active := to);
    assert OnOff(user, to) == ChangeActiveState(user, to) + [reply];
    assert OnOff(next, to) == [reply];
  }

  // ---------------------------------------------------------------------
  // autopost

  lemma DispatchAutopost(env: Env, user: User, arg: Option<string>)
    requires Ready(env)
    ensures Dispatch(env, user, Name(Autopost), arg) == Perform(user, Commands.Autopost(arg))
  {
    DispatchRunsHandler(env, user, Autopost, arg);
    RunSelects(env, Autopost, user, arg);
  }

  /** A blank argument only gets the usage reply; the four spellings of
      "on" switch autopost on, the eight of "off" switch it off, and
      anything else raises without a write. */
  lemma AutopostParses(user: User, arg: Option<string>)
    ensures IsBlankOpt(arg) ==> Perform(user, Commands.Autopost(arg)) == Step(user, [Reply(AutopostUsage)])
    ensures arg.Some? && arg.value in {"on", "oN", "On", "ON"} ==>
              Perform(user, Commands.Autopost(arg)) ==
                Step(user.(autoPost := true), [Write(SetAutoPost(true)), Reply(AutopostOnText)])
    ensures arg.Some? && |arg.value| == 3 && arg.value[0] in "oO" && arg.value[1] in "fF" && arg.value[2] in "fF" ==>
              Perform(user, Commands.Autopost(arg)) ==
                Step(user.(autoPost := false), [Write(SetAutoPost(false)), Reply(AutopostOffText)])
    ensures !IsBlankOpt(arg) && Downcase(arg.value) != "on" && Downcase(arg.value) != "off" ==>
              Perform(user, Commands.Autopost(arg)) == Step(user, [Raise(AutopostInvalid)])
  {
    var r := Commands.Autopost(arg);
    if arg.Some? {
      DowncaseOn(arg.value);
      DowncaseOff(arg.value);
      if arg.value in {"on", "oN", "On", "ON"} || Downcase(arg.value) == "off" {
        assert !IsBlank(arg.value) by { assert !IsSpace(arg.value[0]); }
      }
    }
    if |r| == 2 {
      assert r == [Write(r[0].update), r[1]];
      ApplyWriteThen(user, r[0].update, r[1]);
    }
  }

  /** The on/off test sees the argument before stripping: " on" passes the
      blank check but is neither "on" nor "off", so it raises. */
  lemma AutopostPaddedRaises(user: User)
    ensures Perform(user, Commands.Autopost(Some(" on"))) == Step(user, [Raise(AutopostInvalid)])
  {
    assert !IsBlank(" on") by { assert !IsSpace(" on"[1]); }
    assert Downcase(" on") == " on";
    AutopostParses(user, Some(" on"));
  }

  // ---------------------------------------------------------------------
  // lang

  lemma DispatchLang(env: Env, user: User, arg: Option<string>)
    requires Ready(env)
    ensures Dispatch(env, user, Name(Lang), arg) == Perform(user, Commands.Lang(arg))
  {
    DispatchRunsHandler(env, user, Lang, arg);
    RunSelects(env, Lang, user, arg);
  }

  /** A blank argument clears the language; an argument of any length but
      two is refused and nothing changes; a two-character argument is stored
      exactly as given. */
  lemma LangRules(user: User, arg: Option<string>)
    ensures IsBlankOpt(arg) ==>
              Perform(user, Commands.Lang(arg)) ==
                Step(user.(language := None), [Write(SetLanguage(None)), Reply(LangUnsetText)])
    ensures !IsBlankOpt(arg) && |arg.value| != 2 ==>
              Perform(user, Commands.Lang(arg)) == Step(user, [Reply(LangInvalid)])
    ensures !IsBlankOpt(arg) && |arg.value| == 2 ==>
              Perform(user, Commands.Lang(arg)) ==
                Step(user.(language := arg), [Write(SetLanguage(arg)), Reply(LangSetPrefix + arg.value)])
  {
    var r := Commands.Lang(arg);
    if |r| == 2 {
      assert r == [Write(r[0].update), r[1]];
      ApplyWriteThen(user, r[0].update, r[1]);
    }
  }

  // ---------------------------------------------------------------------
  // Twitter calls

  /** The commands that go through `twitter_call`, and the call each queues. */
  function ActionOf(c: Command): Option<TwitterAction> {
    match c
    case Whois => Some(LookUpUser)
    case Post => Some(PostStatus)
    case Follow => Some(CreateFriendship)
    case Leave => Some(DestroyFriendship)
    case WatchFriends => Some(WatchTimeline)
    case _ => None
  }

  /** The prompt each of those commands gives a logged-in user who names no
      argument. */
  function MissingText(c: Command): (t: string)
    requires ActionOf(c).Some?
    ensures t != NotLoggedInText
  {
    match c
    case Whois => WhoisMissing
    case Post => PostMissing
    case Follow => FollowMissing
    case Leave => LeaveMissing
    case _ => WatchMissing
  }

  /** For `whois`, `post`, `follow`, `leave` and `watch_friends` the login is
      checked first, even when the argument is blank too; a logged-in user
      with a blank argument gets the command's own prompt, which is not the
      login prompt; otherwise exactly
      one task goes onto `TWIT_QUEUE` with the stripped argument. The record
      is never touched. */
  lemma CredentialsCheckedFirst(env: Env, user: User, c: Command, arg: Option<string>)
    requires ActionOf(c).Some?
    ensures var r := Run(env, c, user, arg);
            && Perform(user, r).user == user
            && (!LoggedIn(user) ==> r == [Reply(NotLoggedInText)])
            && (LoggedIn(user) && IsBlankOpt(arg) ==> r == [Reply(MissingText(c))])
            && (LoggedIn(user) && !IsBlankOpt(arg) ==>
                  r == [Enqueue(TwitQueue, TwitterTask(ActionOf(c).value, Strip(arg.value)))])
  {
  }

  lemma DispatchTwlogout(env: Env, user: User, arg: Option<string>)
    requires Ready(env)
    ensures Dispatch(env, user, Name(Twlogout), arg) == Perform(user, Logout())
  {
    DispatchRunsHandler(env, user, Twlogout, arg);
    RunSelects(env, Twlogout, user, arg);
  }

  /** After `twlogout` the user is not logged in, so every Twitter command
      answers with the login prompt and queues nothing. */
  lemma TwlogoutLogsOut(env: Env, user: User, c: Command, arg: Option<string>)
    ensures var r := Perform(user, Logout());
            && r == Step(user.(username := None, password := None), [Write(SetCredentials(None, None)), Reply(LoggedOutText)])
            && !LoggedIn(r.user)
            && (ActionOf(c).Some? ==> Perform(r.user, Run(env, c, r.user, arg)) == Step(r.user, [Reply(NotLoggedInText)]))
  {
    var e := Logout();
    assert e == [Write(e[0].update), e[1]];
    ApplyWriteThen(user, e[0].update, e[1]);
    var after := user.(username := None, password := None);
    if ActionOf(c).Some? {
      CredentialsCheckedFirst(env, after, c, arg);
    }
  }

  // ---------------------------------------------------------------------
  // twlogin

  lemma DispatchTwlogin(env: Env, user: User, arg: Option<string>)
    requires Ready(env)
    ensures Dispatch(env, user, Name(Twlogin), arg) == Perform(user, Commands.Twlogin(arg))
  {
    DispatchRunsHandler(env, user, Twlogin, arg);
    RunSelectsQuiet(env, Twlogin, user, arg);
  }

  /** Stripping a padded "username gap password" and splitting it at its
      first whitespace run gives the username and the password back. */
  lemma LoginWords(p: string, u: string, gap: string, pw: string, q: string)
    requires IsBlank(p) && IsBlank(q) && gap != [] && IsBlank(gap)
    requires u != [] && IsWord(u) && pw != [] && IsStripped(pw)
    ensures !IsBlank(p + u + gap + pw + q)
    ensures SplitOnce(Strip(Strip(p + u + gap + pw + q))) == (u, Some(pw))
  {
    var t := u + gap + pw;
    assert t != [] && IsStripped(t) by {
      assert t[0] == u[0] && t[|t| - 1] == pw[|pw| - 1];
      assert !IsSpace(u[0]);
    }
    assert p + u + gap + pw + q == p + t + q;
    StripPadded(p, t, q);
    StripIdempotent(p + t + q);
    SplitOnceJoin(u, gap, pw);
  }

  /** `twlogin` with a username, a whitespace run and a password (padded with
      whitespace on both sides) queues one login task with the username and
      the password, inner whitespace kept. */
  lemma TwloginSplits(p: string, u: string, gap: string, pw: string, q: string)
    requires IsBlank(p) && IsBlank(q) && gap != [] && IsBlank(gap)
    requires u != [] && IsWord(u) && pw != [] && IsStripped(pw)
    ensures Commands.Twlogin(Some(p + u + gap + pw + q)) == [Enqueue(TwitQueue, LoginTask(u, Some(pw)))]
  {
    LoginWords(p, u, gap, pw, q);
  }

  /** A single word is taken as the username, with no password. */
  lemma TwloginOneWord(p: string, u: string, q: string)
    requires IsBlank(p) && IsBlank(q) && u != [] && IsWord(u)
    ensures Commands.Twlogin(Some(p + u + q)) == [Enqueue(TwitQueue, LoginTask(u, None))]
  {
    var s := p + u + q;
    assert IsStripped(u) by { assert !IsSpace(u[0]) && !IsSpace(u[|u| - 1]); }
    StripPadded(p, u, q);
    StripIdempotent(s);
    assert Strip(Strip(s)) == u;
    assert SplitOnce(u) == (u, None);
    assert !IsBlankOpt(Some(s));
  }

  /** A login that the service verifies stores the username and password
      queued by `twlogin`, after which the user is logged in; a failed
      verification changes nothing. */
  lemma TwloginRoundTrip(later: User, u: string, gap: string, pw: string, remote: Remote)
    requires gap != [] && IsBlank(gap) && u != [] && IsWord(u) && pw != [] && IsStripped(pw)
    ensures Commands.Twlogin(Some(u + gap + pw)) == [Enqueue(TwitQueue, LoginTask(u, Some(pw)))]
    ensures remote.verify.Pass? ==>
              var after := RunTask(later, LoginTask(u, Some(pw)), remote).user;
              after == later.(username := Some(u), password := Some(pw)) && LoggedIn(after)
    ensures remote.verify.Fail? ==>
              RunTask(later, LoginTask(u, Some(pw)), remote) == Step(later, [Reply(LoginFailedText)])
  {
    assert [] + u + gap + pw + [] == u + gap + pw;
    TwloginSplits([], u, gap, pw, []);
    LoginTaskStores(later, u, Some(pw), remote);
    WordsLogIn(later, u, pw);
  }

  /** A stored non-empty word and non-empty stripped password log the user in. */
  lemma WordsLogIn(user: User, u: string, pw: string)
    requires u != [] && IsWord(u) && pw != [] && IsStripped(pw)
    ensures LoggedIn(user.(username := Some(u), password := Some(pw)))
  {
    assert !IsSpace(u[0]);
  }

  /** The login task stores what it was given exactly when the service
      verifies it and a password was given. */
  lemma LoginTaskStores(later: User, u: string, pw: Option<string>, remote: Remote)
    ensures var r := RunTask(later, LoginTask(u, pw), remote);
            && (remote.verify.Pass? && pw.Some? ==> r.user == later.(username := Some(u), password := pw))
            && (!(remote.verify.Pass? && pw.Some?) ==> r == Step(later, [Reply(LoginFailedText)]))
  {
    var e := RunLogin(u, pw, remote);
    if remote.verify.Pass? && pw.Some? {
      assert e == [Write(e[0].update), e[1]];
      ApplyWriteThen(later, e[0].update, e[1]);
    }
  }

  // ---------------------------------------------------------------------
  // watch_friends

  /** `watch_friends` does not look at its value before queueing: a
      logged-in user's call with any value is queued, and the task refuses
      a value other than "on" or "off" without writing. */
  lemma WatchValueCheckedInTask(env: Env, user: User, v: string, later: User, remote: Remote)
    requires LoggedIn(user) && !IsBlank(v)
    requires Strip(v) != "on" && Strip(v) != "off"
    requires later.password.Some?
    ensures Run(env, WatchFriends, user, Some(v)) == [Enqueue(TwitQueue, TwitterTask(WatchTimeline, Strip(v)))]
    ensures RunTask(later, TwitterTask(WatchTimeline, Strip(v)), remote) ==
              Step(later, [Reply(WatchInvalidText)])
  {
    CredentialsCheckedFirst(env, user, WatchFriends, Some(v));
    WatchTaskRefuses(later, Strip(v), remote);
  }

  /** The queued `watch_friends` task refuses a value other than "on" or
      "off" and writes nothing. */
  lemma WatchTaskRefuses(later: User, v: string, remote: Remote)
    requires v != "on" && v != "off" && later.password.Some?
    ensures RunTask(later, TwitterTask(WatchTimeline, v), remote) == Step(later, [Reply(WatchInvalidText)])
  {
  }

  /** A `watch_friends on` task whose timeline call times out raises the
      timeout past the bare `rescue`: no write and no reply. */
  lemma WatchTimeoutEscapes(later: User, remote: Remote)
    requires later.password.Some? && remote.timeline == Failure(TimedOut)
    ensures RunTask(later, TwitterTask(WatchTimeline, "on"), remote) == Step(later, [Raise(TimeoutMessage)])
  {
  }

  /** A Twitter task whose record holds no password when it runs raises
      when it reads the password. */
  lemma LoggedOutTaskRaises(user: User, action: TwitterAction, arg: string, remote: Remote)
    requires user.password.None?
    ensures RunTask(user, TwitterTask(action, arg), remote) == Step(user, [Raise(MissingPassword)])
  {
  }

  // ---------------------------------------------------------------------
  // track / untrack / tracks

  lemma DispatchTrack(env: Env, user: User, arg: Option<string>)
    requires Ready(env)
    ensures Dispatch(env, user, Name(Track), arg) == Perform(user, TrackCmd(arg))
  {
    DispatchRunsHandler(env, user, Track, arg);
    RunSelects(env, Track, user, arg);
  }

  lemma DispatchUntrack(env: Env, user: User, arg: Option<string>)
    requires Ready(env)
    ensures Dispatch(env, user, Name(Untrack), arg) == Perform(user, UntrackCmd(user, arg))
  {
    DispatchRunsHandler(env, user, Untrack, arg);
    RunSelects(env, Untrack, user, arg);
  }

  /** `untrack` of a tracked query removes it and confirms; of any other
      query it only says so. Either way the query is not tracked afterwards. */
  lemma UntrackRemoves(user: User, arg: Option<string>)
    requires !IsBlankOpt(arg)
    ensures var a := Strip(arg.value);
            var r := Perform(user, UntrackCmd(user, arg));
            && a !in r.user.tracks
            && (a in user.tracks ==>
                  && r.effects[|r.effects| - 1] == Reply(UntrackedText(a))
                  && forall t :: t in r.user.tracks <==> t in user.tracks && t != a)
            && (a !in user.tracks ==> r == Step(user, [Reply(NotUntrackedText(a))]))
  {
    var a := Strip(arg.value);
    var e := UntrackCmd(user, arg);
    if a in user.tracks {
      ApplyWriteThen(user, RemoveTrack(a), e[1]);
    }
  }

  /** Tracking a new query and untracking it again gives the track list back. */
  lemma TrackUntrackRoundTrip(user: User, arg: Option<string>)
    requires !IsBlankOpt(arg) && Strip(arg.value) !in user.tracks
    ensures var tracked := Perform(user, TrackCmd(arg)).user;
            Perform(tracked, UntrackCmd(tracked, arg)).user.tracks == user.tracks
  {
    var a := Strip(arg.value);
    var e := TrackCmd(arg);
    ApplyWriteThen(user, AddTrack(a), e[1]);
    var tracked := user.(tracks := user.tracks + [a]);
    var e2 := UntrackCmd(tracked, arg);
    ApplyWriteThen(tracked, RemoveTrack(a), e2[1]);
    WithoutAppended(user.tracks, a);
  }

  lemma {:induction false} WithoutAppended(xs: seq<string>, x: string)
    requires x !in xs
    ensures Without(xs + [x], x) == xs
  {
    if |xs| > 0 {
      assert (xs + [x])[1..] == xs[1..] + [x];
      WithoutAppended(xs[1..], x);
      assert xs == [xs[0]] + xs[1..];
    } else {
      assert xs + [x] == [x];
      assert [x][1..] == [];
    }
  }

  /** The `tracks` reply starts with "Tracking ", then a run of decimal
      digits that reads back as the number of queries, then " topics". */
  lemma TracksTextCount(tracks: seq<string>)
    ensures OccursAt("Tracking ", TracksText(tracks), 0)
    ensures var t := TracksText(tracks);
            var k := |NatToString(|tracks|)|;
            && 9 + k <= |t|
            && (forall i :: 9 <= i < 9 + k ==> '0' <= t[i] <= '9')
            && DigitsValue(t[9..9 + k]) == |tracks|
            && OccursAt(" topics\n", t, 9 + k)
  {
    var n := NatToString(|tracks|);
    var rest := Join(Sort(tracks), "\n");
    assert TracksText(tracks) == "Tracking " + n + (" topics\n" + rest);
    NumberReadsBack("Tracking ", |tracks|, " topics\n" + rest);
    assert OccursAt(" topics\n", " topics\n" + rest, 0);
    OccursShift(" topics\n", " topics\n" + rest, 0, "Tracking " + n);
  }

  /** The `tracks` reply does not depend on the order the queries are
      stored in. */
  lemma TracksOrderFree(tracks: seq<string>, other: seq<string>)
    requires multiset(other) == multiset(tracks)
    ensures TracksText(other) == TracksText(tracks)
  {
    SortPermutationInvariant(other, tracks);
  }

  /** `tracks` replies with the count and the sorted queries and changes
      nothing. */
  lemma TracksListing(env: Env, user: User, arg: Option<string>)
    requires Ready(env)
    ensures Dispatch(env, user, Name(Tracks), arg) == Step(user, [Reply(TracksText(user.tracks))])
  {
    DispatchRunsHandler(env, user, Tracks, arg);
    RunSelectsQuiet(env, Tracks, user, arg);
  }

  // ---------------------------------------------------------------------
  // help

  /** `help` replies with `HelpReply` and changes nothing. */
  lemma HelpAnswers(env: Env, user: User, arg: Option<string>)
    requires Ready(env)
    ensures Dispatch(env, user, Name(HelpCmd), arg) == Step(user, [Reply(HelpReply(env.reg, arg))])
  {
    DispatchRunsHandler(env, user, HelpCmd, arg);
    RunSelectsQuiet(env, HelpCmd, user, arg);
  }

  // ---------------------------------------------------------------------
  // Nothing else changes

  /** `a` and `b` agree on every field outside `fields`. */
  predicate SameOutside(a: User, b: User, fields: set<Field>) {
    && a.jid == b.jid && a.status == b.status
    && (ActiveField !in fields ==> a.active == b.active)
    && (AutoPostField !in fields ==> a.autoPost == b.autoPost)
    && (LanguageField !in fields ==> a.language == b.language)
    && (CredentialsField !in fields ==> a.username == b.username && a.password == b.password)
    && (TimelineField !in fields ==> a.friendTimelineId == b.friendTimelineId)
    && (TracksField !in fields ==> a.tracks == b.tracks)
  }

  lemma {:induction false} WritesInFields(user: User, effects: seq<Effect>, fields: set<Field>)
    requires WritesOnly(effects, fields)
    ensures SameOutside(ApplyWrites(user, effects), user, fields)
    decreases |effects|
  {
    if |effects| > 0 {
      var next := if effects[0].Write? then Apply(user, effects[0].update) else user;
      WritesInFields(next, effects[1..], fields);
    }
  }

  /** A command changes only the fields it is responsible for; the Twitter
      commands, `help`, `search`, `twlogin` and the read-only commands
      change nothing at all. */
  lemma OnlyItsFieldsChange(env: Env, user: User, c: Command, arg: Option<string>)
    requires Ready(env)
    ensures SameOutside(Dispatch(env, user, Name(c), arg).user, user, Writable(c))
  {
    DispatchRunsHandler(env, user, c, arg);
    RunWritesOnly(env, c, user, arg);
    WritesInFields(user, Run(env, c, user, arg), Writable(c));
  }
}

=== FILE: registry.dfy ===
/** The command table and help registry of `CommandProcessor`: the names
    defined with `cmd`, the `Help` records and the `help_text` overrides, the
    order they appear in the class body, and the `help` command's listing and
    lookup. */
module CommandTable {
  import opened Options
  import opened Text
  import opened Ordering

  /** The commands the class body defines with `cmd`, one per method. */
  datatype Command =
    | HelpCmd | Version | On | Off | Autopost | Top10 | Track | Untrack | Tracks | Search
    | Whois | Twlogin | Twlogout | Status | Post | Follow | Leave | WatchFriends | Lang

  /** The method name, which is also the command word and the help-hash key. */
  function Name(c: Command): string {
    match c
    case HelpCmd => "help"
    case Version => "version"
    case On => "on"
    case Off => "off"
    case Autopost => "autopost"
    case Top10 => "top10"
    case Track => "track"
    case Untrack => "untrack"
    case Tracks => "tracks"
    case Search => "search"
    case Whois => "whois"
    case Twlogin => "twlogin"
    case Twlogout => "twlogout"
    case Status => "status"
    case Post => "post"
    case Follow => "follow"
    case Leave => "leave"
    case WatchFriends => "watch_friends"
    case Lang => "lang"
  }

  /** The command a word names, if any (`respond_to?` restricted to the
      methods defined with `cmd`). */
  function Lookup(s: string): (r: Option<Command>)
    ensures r.Some? ==> Name(r.value) == s
  {
    if s == "help" then Some(HelpCmd)
    else if s == "version" then Some(Version)
    else if s == "on" then Some(On)
    else if s == "off" then Some(Off)
    else if s == "autopost" then Some(Autopost)
    else if s == "top10" then Some(Top10)
    else if s == "track" then Some(Track)
    else if s == "untrack" then Some(Untrack)
    else if s == "tracks" then Some(Tracks)
    else if s == "search" then Some(Search)
    else if s == "whois" then Some(Whois)
    else if s == "twlogin" then Some(Twlogin)
    else if s == "twlogout" then Some(Twlogout)
    else if s == "status" then Some(Status)
    else if s == "post" then Some(Post)
    else if s == "follow" then Some(Follow)
    else if s == "leave" then Some(Leave)
    else if s == "watch_friends" then Some(WatchFriends)
    else if s == "lang" then Some(Lang)
    else None
  }

  /** Every command is found by its own name. */
  lemma LookupName(c: Command)
    ensures Lookup(Name(c)) == Some(c)
  {
  }

  /** Command names start with a lower-case letter, so none is blank. */
  lemma NameNotBlank(c: Command)
    ensures |Name(c)| > 0 && 'a' <= Name(c)[0] <= 'z'
    ensures !IsBlank(Name(c))
  {
  }

  /** A word names a command exactly when the lookup finds one. */
  lemma LookupComplete(s: string)
    ensures Lookup(s).None? <==> forall c :: Name(c) != s
  {
    if Lookup(s).None? {
      forall c ensures Name(c) != s {
        LookupName(c);
      }
    }
  }

  /** Distinct commands have distinct names. */
  lemma NameInjective(a: Command, b: Command)
    ensures Name(a) == Name(b) ==> a == b
  {
    LookupName(a);
    LookupName(b);
  }

  /** Help for one command. `short` is what the command listing shows
      (`Help#to_s`); `full` is what `help <name>` shows. */
  datatype Help = Help(short: string, full: string)

  /** The class-level state built by the declarations: the commands that
      became methods (`define_method`) and the help hash `all_cmds`. The
      hash's insertion order is not recorded: the only reader that iterates
      over it sorts the keys first. */
  datatype Registry = Registry(defined: set<Command>, help: map<Command, Help>)

  /** The registry before any declaration. */
  function Empty(): (reg: Registry)
    ensures reg.defined == {} && reg.help == map[]
  {
    Registry({}, map[])
  }

  /** `cmd name, help do ... end`: defines the command, and records help only
      when a short text is given, with the full help equal to the short one. */
  function Cmd(reg: Registry, c: Command, help: Option<string>): (r: Registry)
    ensures r.defined == reg.defined + {c}
    ensures help.Some? ==> r.help.Keys == reg.help.Keys + {c}
    ensures help.Some? ==> r.help[c].short == help.value && r.help[c].full == help.value
    ensures help.None? ==> r.help == reg.help
  {
    match help
    case None => reg.(defined := reg.defined + {c})
    case Some(h) => Registry(reg.defined + {c}, reg.help[c := Help(h, h)])
  }

  /** `help_text name, text`: overwrites the full help of a command that has
      help. For any other command `all_cmds()[name]` is nil and the assignment
      raises while the class body loads; the failure carries the name. */
  function HelpText(reg: Registry, c: Command, text: string): (r: Result<Registry, string>)
    ensures r.Success? <==> c in reg.help
    ensures r.Failure? ==> r.error == Name(c)
    ensures r.Success? ==>
              && r.value.defined == reg.defined
              && r.value.help.Keys == reg.help.Keys
              && r.value.help[c] == Help(reg.help[c].short, text)
  {
    if c in reg.help then
      Success(reg.(help := reg.help[c := reg.help[c].(full := text)]))
    else
      Failure(Name(c))
  }

  /** Declaring one command leaves the help of every other command as it was. */
  lemma CmdKeepsOthers(reg: Registry, c: Command, help: Option<string>, other: Command)
    requires other != c
    ensures other in Cmd(reg, c, help).help <==> other in reg.help
    ensures other in reg.help ==> Cmd(reg, c, help).help[other] == reg.help[other]
  {
  }

  /** Overriding one command's full help leaves every other command's help as it was. */
  lemma HelpTextKeepsOthers(reg: Registry, c: Command, text: string, other: Command)
    requires other != c && HelpText(reg, c, text).Success?
    ensures other in HelpText(reg, c, text).value.help <==> other in reg.help
    ensures other in reg.help ==> HelpText(reg, c, text).value.help[other] == reg.help[other]
  {
  }

  /** Every command once, in declaration order. */
  const Declared: seq<Command> := [
    HelpCmd, Version, On, Off, Autopost, Top10, Track, Untrack, Tracks, Search,
    Whois, Twlogin, Twlogout, Status, Post, Follow, Leave, WatchFriends, Lang
  ]

  lemma AllDeclared(c: Command)
    ensures c in Declared
  {
  }

  /** The commands of `cs` that have help, in the order of `cs`. */
  function WithHelp(cs: seq<Command>, help: map<Command, Help>): (r: seq<Command>)
    ensures forall c :: c in r <==> c in cs && c in help
  {
    if |cs| == 0 then []
    else
      var rest := WithHelp(cs[1..], help);
      assert forall c :: c in cs <==> c == cs[0] || c in cs[1..];
      if cs[0] in help then [cs[0]] + rest else rest
  }

  /** Where a command stands in the declaration order. */
  function Position(c: Command): (i: nat)
    ensures i < |Declared| && Declared[i] == c
  {
    match c
    case HelpCmd => 0
    case Version => 1
    case On => 2
    case Off => 3
    case Autopost => 4
    case Top10 => 5
    case Track => 6
    case Untrack => 7
    case Tracks => 8
    case Search => 9
    case Whois => 10
    case Twlogin => 11
    case Twlogout => 12
    case Status => 13
    case Post => 14
    case Follow => 15
    case Leave => 16
    case WatchFriends => 17
    case Lang => 18
  }

  /** The commands each appear once in the declaration order. */
  lemma DeclaredOnce()
    ensures Distinct(Declared)
  {
    forall i | 0 <= i < |Declared| ensures Position(Declared[i]) == i {
    }
  }

  /** Picking the commands with help keeps them free of repeats. */
  lemma {:induction false} WithHelpDistinct(cs: seq<Command>, help: map<Command, Help>)
    requires Distinct(cs)
    ensures Distinct(WithHelp(cs, help))
  {
    if |cs| > 0 {
      assert Distinct(cs[1..]) by {
        forall i, j | 0 <= i < j < |cs[1..]| ensures cs[1..][i] != cs[1..][j] {
          assert cs[1..][i] == cs[i + 1] && cs[1..][j] == cs[j + 1];
        }
      }
      WithHelpDistinct(cs[1..], help);
      var rest := WithHelp(cs[1..], help);
      if cs[0] in help {
        assert cs[0] !in cs[1..] by {
          forall i | 0 <= i < |cs[1..]| ensures cs[1..][i] != cs[0] {
            assert cs[1..][i] == cs[i + 1];
          }
        }
        forall i, j | 0 <= i < j < |[cs[0]] + rest| ensures ([cs[0]] + rest)[i] != ([cs[0]] + rest)[j] {
          if i == 0 {
            assert ([cs[0]] + rest)[j] == rest[j - 1];
          } else {
            assert ([cs[0]] + rest)[i] == rest[i - 1] && ([cs[0]] + rest)[j] == rest[j - 1];
          }
        }
      }
    }
  }

  /** Distinct commands have distinct names. */
  lemma NamesDistinct(cs: seq<Command>)
    requires Distinct(cs)
    ensures Distinct(Names(cs))
  {
    forall i, j | 0 <= i < j < |cs| ensures Names(cs)[i] != Names(cs)[j] {
      if Names(cs)[i] == Names(cs)[j] {
        NameInjective(cs[i], cs[j]);
      }
    }
  }

  /** The names of a sequence of commands. */
  function Names(cs: seq<Command>): (names: seq<string>)
    ensures |names| == |cs|
    ensures forall i :: 0 <= i < |cs| ==> names[i] == Name(cs[i])
  {
    seq(|cs|, i requires 0 <= i < |cs| => Name(cs[i]))
  }

  /** The names listed by `help`, in the listing's order: the help hash's
      keys, sorted. Commands declared without help are not among them. */
  function ListedNames(reg: Registry): (names: seq<string>)
    ensures Sorted(names)
    ensures forall c :: c in reg.help <==> Name(c) in names
    ensures forall n :: n in names ==> Lookup(n).Some? && Lookup(n).value in reg.help
    ensures Distinct(names)
  {
    var unsorted := Names(WithHelp(Declared, reg.help));
    DeclaredOnce();
    WithHelpDistinct(Declared, reg.help);
    NamesDistinct(WithHelp(Declared, reg.help));
    DistinctPermutation(unsorted, Sort(unsorted));
    SortSameMembers(unsorted);
    DocumentedNamed(reg);
    DocumentedNamesResolve(reg);
    Sort(unsorted)
  }

  /** A command has help exactly when its name is among the documented names. */
  lemma DocumentedNamed(reg: Registry)
    ensures forall c :: c in reg.help <==> Name(c) in Names(WithHelp(Declared, reg.help))
  {
    var documented := WithHelp(Declared, reg.help);
    var unsorted := Names(documented);
    forall c ensures c in reg.help <==> Name(c) in unsorted {
      if Name(c) in unsorted {
        var i :| 0 <= i < |unsorted| && unsorted[i] == Name(c);
        NameInjective(documented[i], c);
      }
      if c in reg.help {
        AllDeclared(c);
        var i :| 0 <= i < |documented| && documented[i] == c;
        assert unsorted[i] == Name(c);
      }
    }
  }

  /** Every documented name looks up a command that has help. */
  lemma DocumentedNamesResolve(reg: Registry)
    ensures forall n :: n in Names(WithHelp(Declared, reg.help)) ==> Lookup(n).Some? && Lookup(n).value in reg.help
  {
    var documented := WithHelp(Declared, reg.help);
    var unsorted := Names(documented);
    forall n | n in unsorted ensures Lookup(n).Some? && Lookup(n).value in reg.help {
      var i :| 0 <= i < |unsorted| && unsorted[i] == n;
      LookupName(documented[i]);
    }
  }

  const ListingHeading := "Available commands:"
  const ListingHint := "Type `help somecmd' for more help on `somecmd'"
  const SearchNote := "The search is based on summize.  For options, see http://summize.com/operators"
  const ContactNote := "Email questions, suggestions or complaints to dustin@sallings.org"
  const UnknownTopicSuffix := " is unknown.  Type `help' for known commands."
  const HelpPagePrefix := "Help for `"

  /** One listing line per name: the name, a tab, its short help. */
  function EntryLines(reg: Registry, names: seq<string>): (lines: seq<string>)
    requires forall n :: n in names ==> Lookup(n).Some? && Lookup(n).value in reg.help
    ensures |lines| == |names|
  {
    seq(|names|, i requires 0 <= i < |names| => names[i] + "\t" + reg.help[Lookup(names[i]).value].short)
  }

  /** The reply to `help` with no argument. The entry lines form one nested
      array inside the outer one, which `Array#join` joins recursively. */
  function Listing(reg: Registry): string
  {
    Join([ListingHeading, ListingHint, "", Join(EntryLines(reg, ListedNames(reg)), "\n"), "", SearchNote, ContactNote], "\n")
  }

  function UnknownTopic(topic: string): string {
    "Topic " + topic + UnknownTopicSuffix
  }

  /** The help-hash entry stored under a word, if any (`cmds[arg]`). */
  function HelpFor(reg: Registry, word: string): (h: Option<Help>)
    ensures h.Some? <==> exists c :: c in reg.help && Name(c) == word
    ensures h.Some? ==> Lookup(word).Some? && h.value == reg.help[Lookup(word).value]
  {
    LookupComplete(word);
    match Lookup(word)
    case Some(c) =>
      if c in reg.help then Some(reg.help[c])
      else
        assert forall d :: d in reg.help ==> Name(d) != word by {
          forall d | d in reg.help ensures Name(d) != word { NameInjective(c, d); }
        }
        None
    case None => None
  }

  /** The reply of the `help` command. A blank argument lists the commands;
      any other argument is looked up as given, without stripping. */
  function HelpReply(reg: Registry, arg: Option<string>): (text: string)
    ensures IsBlankOpt(arg) ==> text == Listing(reg)
    ensures !IsBlankOpt(arg) && HelpFor(reg, arg.value).Some? ==>
              text == HelpPagePrefix + arg.value + "'\n" + HelpFor(reg, arg.value).value.full
    ensures !IsBlankOpt(arg) && HelpFor(reg, arg.value).None? ==> text == UnknownTopic(arg.value)
  {
    if IsBlankOpt(arg) then Listing(reg)
    else
      match HelpFor(reg, arg.value)
      case Some(h) => HelpPagePrefix + arg.value + "'\n" + h.full
      case None => UnknownTopic(arg.value)
  }

  /** The short help each documented command is declared with. */
  const HelpSummary := "Get help for commands."
  const OnSummary := "Activate updates."
  const OffSummary := "Disable updates."
  const AutopostSummary := "Enable or disable autopost"
  const TrackSummary := "Track a topic (summize query string)"
  const UntrackSummary := "Stop tracking a topic"
  const TracksSummary := "List your tracks."
  const SearchSummary := "Perform a sample search (but do not track)"
  const WhoisSummary := "Find out who a particular user is."
  const TwloginSummary := "Set your twitter username and password (use at your own risk)"
  const TwlogoutSummary := "Discard your twitter credentials"
  const PostSummary := "Post a message to twitter."
  const FollowSummary := "Follow a user"
  const LeaveSummary := "Leave (stop following) a user"
  const WatchFriendsSummary := "Enable or disable watching friends."
  const LangSummary := "Set your language."

  const AutopostHelp :=
    "Autopost allows you to post by sending any unknown command.\n"
    + "usage:  'autopost on' or 'autopost off'\n"
    + "\n"
    + "When autopost is on, any message that doesn't look like a command is posted.\n"
    + "Note that the 'post' command still exists in case you want to post something\n"
    + "that looks like a command.\n"

  const TrackHelp :=
    "Track gives you all of the power of summize queries periodically delivered to your IM client.\n"
    + "Example queries:\n"
    + "\n"
    + "track iphone\n"
    + "track iphone OR android\n"
    + "track iphone android\n"
    + "\n"
    + "See http://summize.com/operators for details on what all you can do.\n"

  const UntrackHelp :=
    "Untrack tells twitterspy to stop tracking the given query.\n"
    + "Examples:\n"
    + "\n"
    + "untrack iphone\n"
    + "untrack iphone OR android\n"
    + "untrack iphone android\n"

  const TwloginHelp :=
    "Provide login credentials for twitter.\n"
    + "NOTE: Giving out your credentials is dangerous.  We will try to keep them safe, but we can't make any promises.\n"
    + "Example usage:\n"
    + "\n"
    + "twlogin mytwittername myr4a11yk0mp13xp455w0rd\n"

  const WatchFriendsHelp :=
    "Enable or disable watching friends.\n"
    + "\n"
    + "  watch_friends on\n"
    + "\n"
    + "floods you with IMs as people you're following tweet.\n"
    + "\n"
    + "  watch_friends off\n"
    + "\n"
    + "gives you a more relaxing day.\n"

  const LangHelp :=
    "Set or clear your language preference.\n"
    + "With no argument, your language preference is cleared and you can receive tweets in any language.\n"
    + "Otherwise, supply a 2 letter ISO country code to restrict tracks to your favorite language.\n"
    + "\n"
    + "Example: to set your language to English so only English tweets are returned from tracks:\n"
    + "\n"
    + "lang en\n"
    + "\n"
    + "Example: to unset your language:\n"
    + "\n"
    + "lang\n"

  /** Every command of the class. */
  const AllCommands: set<Command> := {
    HelpCmd, Version, On, Off, Autopost, Top10, Track, Untrack, Tracks, Search,
    Whois, Twlogin, Twlogout, Status, Post, Follow, Leave, WatchFriends, Lang
  }

  /** The commands declared without help. */
  const Undocumented: set<Command> := {Version, Top10, Status}

  /** The help of every command outside `touched` is as it was in `before`. */
  predicate HelpKept(before: Registry, after: Registry, touched: set<Command>) {
    forall c :: c in before.help && c !in touched ==> c in after.help && after.help[c] == before.help[c]
  }

  /** The help each command is declared with: its summary as the short
      help, and as the full help either the summary again or the long help
      `help_text` gives it. `None` for the three declared without help. */
  function Documentation(c: Command): Option<Help> {
    match c
    case HelpCmd => Some(Help(HelpSummary, HelpSummary))
    case Version => None
    case On => Some(Help(OnSummary, OnSummary))
    case Off => Some(Help(OffSummary, OffSummary))
    case Autopost => Some(Help(AutopostSummary, AutopostHelp))
    case Top10 => None
    case Track => Some(Help(TrackSummary, TrackHelp))
    case Untrack => Some(Help(UntrackSummary, UntrackHelp))
    case Tracks => Some(Help(TracksSummary, TracksSummary))
    case Search => Some(Help(SearchSummary, SearchSummary))
    case Whois => Some(Help(WhoisSummary, WhoisSummary))
    case Twlogin => Some(Help(TwloginSummary, TwloginHelp))
    case Twlogout => Some(Help(TwlogoutSummary, TwlogoutSummary))
    case Status => None
    case Post => Some(Help(PostSummary, PostSummary))
    case Follow => Some(Help(FollowSummary, FollowSummary))
    case Leave => Some(Help(LeaveSummary, LeaveSummary))
    case WatchFriends => Some(Help(WatchFriendsSummary, WatchFriendsHelp))
    case Lang => Some(Help(LangSummary, LangHelp))
  }

  /** Every command in the help hash holds the help it is declared with. */
  predicate Documented(reg: Registry) {
    forall c :: c in reg.help ==> Documentation(c) == Some(reg.help[c])
  }

  /** `help`, `version`, `on`, `off` and `autopost` with its long help. */
  method DeclareFirst(reg: Registry) returns (r: Result<Registry, string>)
    ensures r.Success?
    ensures r.value.defined == reg.defined + {HelpCmd, Version, On, Off, Autopost}
    ensures r.value.help.Keys == reg.help.Keys + {HelpCmd, On, Off, Autopost}
    ensures r.value.help[HelpCmd] == Help(HelpSummary, HelpSummary)
    ensures r.value.help[On] == Help(OnSummary, OnSummary)
    ensures r.value.help[Off] == Help(OffSummary, OffSummary)
    ensures r.value.help[Autopost] == Help(AutopostSummary, AutopostHelp)
    ensures HelpKept(reg, r.value, {HelpCmd, Version, On, Off, Autopost})
  {
    var g := Cmd(reg, HelpCmd, Some(HelpSummary));
    g := Cmd(g, Version, None);
    g := Cmd(g, On, Some(OnSummary));
    g := Cmd(g, Off, Some(OffSummary));
    g := Cmd(g, Autopost, Some(AutopostSummary));
    r := HelpText(g, Autopost, AutopostHelp);
  }

  /** `top10`, `track` and `untrack` with their long help, `tracks`, `search`. */
  method DeclareTracking(reg: Registry) returns (r: Result<Registry, string>)
    ensures r.Success?
    ensures r.value.defined == reg.defined + {Top10, Track, Untrack, Tracks, Search}
    ensures r.value.help.Keys == reg.help.Keys + {Track, Untrack, Tracks, Search}
    ensures r.value.help[Track] == Help(TrackSummary, TrackHelp)
    ensures r.value.help[Untrack] == Help(UntrackSummary, UntrackHelp)
    ensures r.value.help[Tracks] == Help(TracksSummary, TracksSummary)
    ensures r.value.help[Search] == Help(SearchSummary, SearchSummary)
    ensures HelpKept(reg, r.value, {Top10, Track, Untrack, Tracks, Search})
  {
    var g := Cmd(reg, Top10, None);
    g := Cmd(g, Track, Some(TrackSummary));
    var t := HelpText(g, Track, TrackHelp);
    g := Cmd(t.value, Untrack, Some(UntrackSummary));
    t := HelpText(g, Untrack, UntrackHelp);
    g := Cmd(t.value, Tracks, Some(TracksSummary));
    g := Cmd(g, Search, Some(SearchSummary));
    r := Success(g);
  }

  /** `whois`, `twlogin` with its long help, `twlogout`, `status`, `post`. */
  method DeclareAccount(reg: Registry) returns (r: Result<Registry, string>)
    ensures r.Success?
    ensures r.value.defined == reg.defined + {Whois, Twlogin, Twlogout, Status, Post}
    ensures r.value.help.Keys == reg.help.Keys + {Whois, Twlogin, Twlogout, Post}
    ensures r.value.help[Whois] == Help(WhoisSummary, WhoisSummary)
    ensures r.value.help[Twlogin] == Help(TwloginSummary, TwloginHelp)
    ensures r.value.help[Twlogout] == Help(TwlogoutSummary, TwlogoutSummary)
    ensures r.value.help[Post] == Help(PostSummary, PostSummary)
    ensures HelpKept(reg, r.value, {Whois, Twlogin, Twlogout, Status, Post})
  {
    var g := Cmd(reg, Whois, Some(WhoisSummary));
    g := Cmd(g, Twlogin, Some(TwloginSummary));
    var t := HelpText(g, Twlogin, TwloginHelp);
    g := Cmd(t.value, Twlogout, Some(TwlogoutSummary));
    g := Cmd(g, Status, None);
    g := Cmd(g, Post, Some(PostSummary));
    r := Success(g);
  }

  /** `follow`, `leave`, and `watch_friends` and `lang` with their long help. */
  method DeclareSocial(reg: Registry) returns (r: Result<Registry, string>)
    ensures r.Success?
    ensures r.value.defined == reg.defined + {Follow, Leave, WatchFriends, Lang}
    ensures r.value.help.Keys == reg.help.Keys + {Follow, Leave, WatchFriends, Lang}
    ensures r.value.help[Follow] == Help(FollowSummary, FollowSummary)
    ensures r.value.help[Leave] == Help(LeaveSummary, LeaveSummary)
    ensures r.value.help[WatchFriends] == Help(WatchFriendsSummary, WatchFriendsHelp)
    ensures r.value.help[Lang] == Help(LangSummary, LangHelp)
    ensures HelpKept(reg, r.value, {Follow, Leave, WatchFriends, Lang})
  {
    var g := Cmd(reg, Follow, Some(FollowSummary));
    g := Cmd(g, Leave, Some(LeaveSummary));
    g := Cmd(g, WatchFriends, Some(WatchFriendsSummary));
    var t := HelpText(g, WatchFriends, WatchFriendsHelp);
    g := Cmd(t.value, Lang, Some(LangSummary));
    r := HelpText(g, Lang, LangHelp);
  }

  /** What `DeclareFirst` leaves in the help hash keeps it `Documented`. */
  lemma FirstDocumented(reg: Registry, after: Registry)
    requires after.help.Keys == reg.help.Keys + {HelpCmd, On, Off, Autopost}
    requires after.help[HelpCmd] == Help(HelpSummary, HelpSummary)
    requires after.help[On] == Help(OnSummary, OnSummary)
    requires after.help[Off] == Help(OffSummary, OffSummary)
    requires after.help[Autopost] == Help(AutopostSummary, AutopostHelp)
    requires HelpKept(reg, after, {HelpCmd, Version, On, Off, Autopost})
    requires Documented(reg)
    ensures Documented(after)
  {
  }

  /** What `DeclareTracking` leaves in the help hash keeps it `Documented`. */
  lemma TrackingDocumented(reg: Registry, after: Registry)
    requires after.help.Keys == reg.help.Keys + {Track, Untrack, Tracks, Search}
    requires after.help[Track] == Help(TrackSummary, TrackHelp)
    requires after.help[Untrack] == Help(UntrackSummary, UntrackHelp)
    requires after.help[Tracks] == Help(TracksSummary, TracksSummary)
    requires after.help[Search] == Help(SearchSummary, SearchSummary)
    requires HelpKept(reg, after, {Top10, Track, Untrack, Tracks, Search})
    requires Documented(reg)
    ensures Documented(after)
  {
  }

  /** What `DeclareAccount` leaves in the help hash keeps it `Documented`. */
  lemma AccountDocumented(reg: Registry, after: Registry)
    requires after.help.Keys == reg.help.Keys + {Whois, Twlogin, Twlogout, Post}
    requires after.help[Whois] == Help(WhoisSummary, WhoisSummary)
    requires after.help[Twlogin] == Help(TwloginSummary, TwloginHelp)
    requires after.help[Twlogout] == Help(TwlogoutSummary, TwlogoutSummary)
    requires after.help[Post] == Help(PostSummary, PostSummary)
    requires HelpKept(reg, after, {Whois, Twlogin, Twlogout, Status, Post})
    requires Documented(reg)
    ensures Documented(after)
  {
  }

  /** What `DeclareSocial` leaves in the help hash keeps it `Documented`. */
  lemma SocialDocumented(reg: Registry, after: Registry)
    requires after.help.Keys == reg.help.Keys + {Follow, Leave, WatchFriends, Lang}
    requires after.help[Follow] == Help(FollowSummary, FollowSummary)
    requires after.help[Leave] == Help(LeaveSummary, LeaveSummary)
    requires after.help[WatchFriends] == Help(WatchFriendsSummary, WatchFriendsHelp)
    requires after.help[Lang] == Help(LangSummary, LangHelp)
    requires HelpKept(reg, after, {Follow, Leave, WatchFriends, Lang})
    requires Documented(reg)
    ensures Documented(after)
  {
  }

  /** The state the class body leaves: every command defined, exactly the
      three declared without help missing from the help hash, and every
      other command holding the help it was declared with. */
  predicate Loaded(reg: Registry) {
    && reg.defined == AllCommands
    && reg.help.Keys == AllCommands - Undocumented
    && Documented(reg)
  }

  /** The help keys the four declaration groups add make up every command
      but the three declared without help. */
  lemma DocumentedAfterLoad(k1: set<Command>, k2: set<Command>, k3: set<Command>, k4: set<Command>)
    requires k1 == {} + {HelpCmd, On, Off, Autopost}
    requires k2 == k1 + {Track, Untrack, Tracks, Search}
    requires k3 == k2 + {Whois, Twlogin, Twlogout, Post}
    requires k4 == k3 + {Follow, Leave, WatchFriends, Lang}
    ensures k4 == AllCommands - Undocumented
  {
  }

  /** The commands the four declaration groups define make up every command. */
  lemma DefinedAfterLoad(d1: set<Command>, d2: set<Command>, d3: set<Command>, d4: set<Command>)
    requires d1 == {} + {HelpCmd, Version, On, Off, Autopost}
    requires d2 == d1 + {Top10, Track, Untrack, Tracks, Search}
    requires d3 == d2 + {Whois, Twlogin, Twlogout, Status, Post}
    requires d4 == d3 + {Follow, Leave, WatchFriends, Lang}
    ensures d4 == AllCommands
  {
  }

  /** The class body of `CommandProcessor`: its `cmd` and `help_text`
      declarations in source order. It loads (every `help_text` names a
      command declared with help before it, so none raises) and leaves the
      registry `Loaded`. */
  method ClassBody() returns (r: Result<Registry, string>)
    ensures r.Success? && Loaded(r.value)
  {
    var g := DeclareFirst(Empty());
    var reg1 := g.value;
    g := DeclareTracking(reg1);
    var reg2 := g.value;
    g := DeclareAccount(reg2);
    var reg3 := g.value;
    g := DeclareSocial(reg3);
    var reg4 := g.value;
    DefinedAfterLoad(reg1.defined, reg2.defined, reg3.defined, reg4.defined);
    DocumentedAfterLoad(reg1.help.Keys, reg2.help.Keys, reg3.help.Keys, reg4.help.Keys);
    FirstDocumented(Empty(), reg1);
    TrackingDocumented(reg1, reg2);
    AccountDocumented(reg2, reg3);
    SocialDocumented(reg3, reg4);
    r := g;
  }

  /** Once loaded, `version`, `top10` and `status` are commands but are not
      listed by `help`; every other command is listed. */
  lemma UndocumentedHidden(reg: Registry, c: Command)
    requires Loaded(reg)
    ensures c in reg.defined
    ensures c in Undocumented <==> Name(c) !in ListedNames(reg)
  {
  }

  /** Once loaded, `help` on the name of `version`, `top10` or `status`
      answers that the topic is unknown; on any other command's name it
      shows the full help that command was declared with. */
  lemma HelpPages(reg: Registry, c: Command)
    requires Loaded(reg)
    ensures c in Undocumented ==> HelpReply(reg, Some(Name(c))) == UnknownTopic(Name(c))
    ensures c !in Undocumented ==>
              && Documentation(c).Some?
              && HelpReply(reg, Some(Name(c))) == HelpPagePrefix + Name(c) + "'\n" + Documentation(c).value.full
  {
    NameNotBlank(c);
    LookupName(c);
  }
}

=== FILE: tasks.dfy ===
/** The work the handlers queue, as it runs later on a worker: the record is
    the one the task captured, read at that time, and every answer from
    Twitter or Summize is a parameter. An exception a task does not rescue ends it with `Raise`. */
module Tasks {
  import opened Options
  import opened Text
  import opened Users
  import opened Effects

  /** A search hit: its author and text. */
  datatype Hit = Hit(fromUser: string, text: string)

  /** A Twitter profile as `whois` reads it; name and location may be absent. */
  datatype Profile = Profile(name: Option<string>, location: Option<string>)

  /** A status of the friends timeline. */
  datatype Status = Status(id: int, text: string, screenName: string)

  /** How a remote call can fail. `Failed` is a `StandardError`, which a
      bare `rescue` catches. `TimedOut` is Ruby 1.8's `Timeout::Error`, raised
      by the HTTP open and read timeouts: there it is a subclass of
      `Interrupt`, not of `StandardError`, so only a `rescue` naming
      `Interrupt` catches it. */
  datatype Fault = Failed(message: string) | TimedOut

  /** The message Ruby 1.8's `Timeout` library gives the error it raises. */
  const TimeoutMessage := "execution expired"

  /** What the remote services answer, for each call a task can make. */
  datatype Remote = Remote(
    search: Result<seq<Hit>, string>,
    verify: Outcome<string>,
    profile: Result<Profile, string>,
    recent: Result<seq<Hit>, string>,
    post: Result<nat, string>,
    friendship: Outcome<string>,
    timeline: Result<seq<Status>, Fault>)

  /** Raised when a queued Twitter call finds no password in the record it
      reads: decoding a missing password fails. */
  const MissingPassword := "undefined method `unpack' for nil:NilClass"

  const LoginFailedText := "Unable to verify your credentials.  They're either wrong or twitter is broken."
  const LoginSavedText := "Your credentials have been verified and saved.  Thanks."
  const SearchHeading := "Results from your query:"
  const WhoisFailedPrefix := "Unable to get information for "
  const RecentHeading := "Most recent tweets:"
  const ProfileLinkPrefix := "\nhttp://twitter.com/"
  const PostedPrefix := ":) Your message has been posted to twitter: http://twitter.com/"
  const PostFailedText := ":( Failed to post your message.  Your password may be wrong, or twitter may be broken."
  const FollowingPrefix := ":) Now following "
  const LeftPrefix := ":) No longer following "
  const FollowFailedPrefix := ":( Failed to follow "
  const LeaveFailedPrefix := ":( Failed to leave "
  const WatchOffText := "No longer watching your friends."
  const WatchInvalidText := "Watch value must be 'off' or 'on'"
  const TimelineFailedText := ":( Failed to lookup your public timeline"
  const WatchingPrefix := "Watching messages from everyone you follow after ``"

  /** The search task: the hits as "author: text" blocks under a heading.
      A failing search is not rescued. */
  function RunSearch(query: string, remote: Remote): (r: seq<Effect>)
    ensures remote.search.Failure? ==> r == [Raise(remote.search.error)]
    ensures remote.search.Success? ==> |r| == 1 && r[0].Reply?
  {
    match remote.search
    case Failure(e) => [Raise(e)]
    case Success(hits) =>
      [Reply(Join([SearchHeading] + seq(|hits|, i requires 0 <= i < |hits| => hits[i].fromUser + ": " + hits[i].text), "\n\n"))]
  }

  /** The login task. Only a verified login that has a password is saved;
      without a password, encoding it raises inside the rescued block, so
      the user gets the same reply as for a failed verification. */
  function RunLogin(username: string, password: Option<string>, remote: Remote): (r: seq<Effect>)
    ensures remote.verify.Pass? && password.Some? ==>
              r == [Write(SetCredentials(Some(username), password)), Reply(LoginSavedText)]
    ensures !(remote.verify.Pass? && password.Some?) ==> r == [Reply(LoginFailedText)]
  {
    if remote.verify.Pass? && password.Some? then
      [Write(SetCredentials(Some(username), password)), Reply(LoginSavedText)]
    else
      [Reply(LoginFailedText)]
  }

  /** The `whois` reply built from a profile and the user's recent tweets. */
  function WhoisText(username: string, p: Profile, recent: seq<Hit>): string {
    var name := if IsBlankOpt(p.name) then "Someone" else p.name.value;
    var place := if IsBlankOpt(p.location) then "Somewhere" else p.location.value;
    Join([username + " is " + name + " from " + place, RecentHeading]
         + seq(|recent|, i requires 0 <= i < |recent| => "\n" + NatToString(i + 1) + ") " + recent[i].text)
         + [ProfileLinkPrefix + Strip(username)], "\n")
  }

  /** Writes a task may make: the credentials and the friends timeline. */
  predicate TaskWrites(effects: seq<Effect>) {
    forall i :: 0 <= i < |effects| ==> effects[i].Write? ==>
      effects[i].update.SetCredentials? || effects[i].update.SetFriendTimeline?
  }

  /** `whois`: the profile and recent tweets, or an apology naming the user
      when either lookup fails. */
  function WhoisTask(arg: string, remote: Remote): (r: seq<Effect>)
    ensures |r| == 1 && r[0].Reply?
    ensures remote.profile.Failure? || remote.recent.Failure? ==>
              r[0].text == WhoisFailedPrefix + arg
    ensures remote.profile.Success? && remote.recent.Success? ==>
              OccursAt(arg + " is ", r[0].text, 0)
  {
    if remote.profile.Success? && remote.recent.Success? then
      var text := WhoisText(arg, remote.profile.value, remote.recent.value);
      assert text[..|arg + " is "|] == arg + " is ";
      [Reply(text)]
    else
      [Reply(WhoisFailedPrefix + arg)]
  }

  /** `post`: a link to the new status under the username the record holds
      when the task runs, or a failure reply. Nothing is written. */
  function PostTask(user: User, remote: Remote): (r: seq<Effect>)
    ensures |r| == 1 && r[0].Reply?
    ensures remote.post.Success? ==>
              r[0].text == PostedPrefix
                           + user.username.GetOr("") + "/statuses/" + NatToString(remote.post.value)
    ensures remote.post.Failure? ==>
              r[0].text == PostFailedText
  {
    match remote.post
    case Success(id) =>
      [Reply(PostedPrefix
             + user.username.GetOr("") + "/statuses/" + NatToString(id))]
    case Failure(_) =>
      [Reply(PostFailedText)]
  }

  /** `follow` and `leave`: a confirmation, or a failure reply that carries
      the error text. Nothing is written. */
  function FriendshipTask(follow: bool, arg: string, remote: Remote): (r: seq<Effect>)
    ensures |r| == 1 && r[0].Reply?
    ensures remote.friendship.Pass? ==>
              r[0].text == (if follow then FollowingPrefix else LeftPrefix) + arg
    ensures remote.friendship.Fail? ==>
              r[0].text == (if follow then FollowFailedPrefix else LeaveFailedPrefix)
                           + arg + " " + remote.friendship.error
  {
    match remote.friendship
    case Pass => [Reply((if follow then FollowingPrefix else LeftPrefix) + arg)]
    case Fail(e) => [Reply((if follow then FollowFailedPrefix else LeaveFailedPrefix) + arg + " " + e)]
  }

  /** What `nil.id` answers under Ruby 1.8: the object id of `nil`. */
  const NilObjectId := 4

  /** `watch_friends`, whose value is only checked here: "on" remembers the
      newest status of the friends timeline, "off" forgets it, and any other
      value is refused without a write. A timeline call failing with a
      `StandardError` gets the failure reply; one that times out escapes the
      bare `rescue` and ends the task. On an empty timeline the first status is `nil`, whose
      `id` is its object id under Ruby 1.8: that id is stored, then reading
      the status text raises and the rescue sends the failure reply. */
  function WatchTask(arg: string, remote: Remote): (r: seq<Effect>)
    ensures |r| > 0 && (r[|r| - 1].Reply? || r[|r| - 1].Raise?)
    ensures TaskWrites(r)
    ensures arg == "on" && remote.timeline.Success? && |remote.timeline.value| > 0 ==>
              r[0] == Write(SetFriendTimeline(Some(remote.timeline.value[0].id))) && |r| == 2
    ensures arg == "off" ==> r == [Write(SetFriendTimeline(None)), Reply(WatchOffText)]
    ensures arg != "on" && arg != "off" ==> r == [Reply(WatchInvalidText)]
    ensures arg == "on" && remote.timeline.Failure? && remote.timeline.error.Failed? ==>
              r == [Reply(TimelineFailedText)]
    ensures arg == "on" && remote.timeline == Failure(TimedOut) ==> r == [Raise(TimeoutMessage)]
    ensures arg == "on" && remote.timeline.Success? && |remote.timeline.value| == 0 ==>
              r == [Write(SetFriendTimeline(Some(NilObjectId))), Reply(TimelineFailedText)]
  {
    if arg == "on" then
      match remote.timeline
      case Failure(Failed(_)) => [Reply(TimelineFailedText)]
      case Failure(TimedOut) => [Raise(TimeoutMessage)]
      case Success(timeline) =>
        if |timeline| > 0 then
          var item := timeline[0];
          [ Write(SetFriendTimeline(Some(item.id))),
            Reply(WatchingPrefix + item.text + "'' from @" + item.screenName) ]
        else
          [Write(SetFriendTimeline(Some(NilObjectId))), Reply(TimelineFailedText)]
    else if arg == "off" then
      [Write(SetFriendTimeline(None)), Reply(WatchOffText)]
    else
      [Reply(WatchInvalidText)]
  }

  /** The body each Twitter call runs once the credentials are read. */
  function RunAction(user: User, action: TwitterAction, arg: string, remote: Remote): (r: seq<Effect>)
    ensures |r| > 0 && (r[|r| - 1].Reply? || (action == WatchTimeline && r[|r| - 1].Raise?))
    ensures TaskWrites(r)
    ensures action != WatchTimeline ==> |r| == 1
  {
    match action
    case LookUpUser => WhoisTask(arg, remote)
    case PostStatus => PostTask(user, remote)
    case CreateFriendship => FriendshipTask(true, arg, remote)
    case DestroyFriendship => FriendshipTask(false, arg, remote)
    case WatchTimeline => WatchTask(arg, remote)
  }

  /** A queued Twitter call: decodes the password the record holds when the
      task runs (raising when there is none), then runs its action. */
  function RunTwitter(user: User, action: TwitterAction, arg: string, remote: Remote): (r: seq<Effect>)
    ensures user.password.None? <==> r == [Raise(MissingPassword)]
    ensures user.password.Some? ==> r == RunAction(user, action, arg, remote)
  {
    if user.password.None? then [Raise(MissingPassword)]
    else RunAction(user, action, arg, remote)
  }

  /** Runs one queued task against the record it sees when it runs. */
  function RunTask(user: User, task: Task, remote: Remote): (r: Step)
    ensures |r.effects| > 0
    ensures ValidUser(user) ==> ValidUser(r.user)
    ensures r.user.jid == user.jid && r.user.tracks == user.tracks && r.user.active == user.active
  {
    var effects :=
      match task
      case SearchTask(q) => RunSearch(q, remote)
      case LoginTask(u, p) => RunLogin(u, p, remote)
      case TwitterTask(a, arg) => RunTwitter(user, a, arg, remote);
    assert ValidWrites(effects);
    assert ValidUser(user) ==> ValidUser(ApplyWrites(user, effects)) by {
      if ValidUser(user) { ApplyWritesKeepsValid(user, effects); }
    }
    TaskFieldsKept(user, effects);
    Perform(user, effects)
  }

  /** Tasks write credentials and the friends timeline only. */
  lemma {:induction false} TaskFieldsKept(user: User, effects: seq<Effect>)
    requires TaskWrites(effects)
    ensures ApplyWrites(user, effects).jid == user.jid
    ensures ApplyWrites(user, effects).tracks == user.tracks
    ensures ApplyWrites(user, effects).active == user.active
    decreases |effects|
  {
    if |effects| > 0 {
      var next := if effects[0].Write? then Apply(user, effects[0].update) else user;
      TaskFieldsKept(next, effects[1..]);
    }
  }
}

=== FILE: text.dfy ===
/** The string operations the command processor relies on: Ruby's `strip`,
    `blank?`, `downcase`, `split(/\s+/, 2)`, `Array#join` and integer
    interpolation. Strings are sequences of characters. */
module Text {
  import opened Options

  /** The whitespace class shared by `strip`, `blank?` and the `\s` of a regular
      expression: space, tab, line feed, vertical tab, form feed, carriage return. */
  predicate IsSpace(c: char) {
    c == ' ' || c == '\t' || c == '\n' || c == '\U{000B}' || c == '\U{000C}' || c == '\r'
  }

  /** Empty or whitespace-only. */
  predicate IsBlank(s: string) {
    forall i :: 0 <= i < |s| ==> IsSpace(s[i])
  }

  /** `arg.nil? || arg.strip == ""`, and equally Ruby's `blank?` on a string or nil. */
  predicate IsBlankOpt(arg: Option<string>) {
    arg.None? || IsBlank(arg.value)
  }

  /** Neither begins nor ends with whitespace: a fixed point of `strip`. */
  predicate IsStripped(s: string) {
    s == [] || (!IsSpace(s[0]) && !IsSpace(s[|s| - 1]))
  }

  /** Contains no whitespace at all: one word. */
  predicate IsWord(s: string) {
    forall i :: 0 <= i < |s| ==> !IsSpace(s[i])
  }

  /** Length of the longest whitespace prefix. */
  function LeadingSpaces(s: string): (n: nat)
    ensures n <= |s|
    ensures IsBlank(s[..n])
    ensures n < |s| ==> !IsSpace(s[n])
  {
    if |s| == 0 || !IsSpace(s[0]) then 0
    else
      var m := LeadingSpaces(s[1..]);
      assert s[..1 + m] == [s[0]] + s[1..][..m];
      1 + m
  }

  /** Length of the longest whitespace suffix. */
  function TrailingSpaces(s: string): (n: nat)
    ensures n <= |s|
    ensures IsBlank(s[|s| - n..])
    ensures n < |s| ==> !IsSpace(s[|s| - 1 - n])
  {
    if |s| == 0 || !IsSpace(s[|s| - 1]) then 0
    else
      var t := s[..|s| - 1];
      var m := TrailingSpaces(t);
      assert s[|s| - (1 + m)..] == t[|t| - m..] + [s[|s| - 1]];
      1 + m
  }

  /** Length of the longest prefix free of whitespace. */
  function WordLength(s: string): (n: nat)
    ensures n <= |s|
    ensures IsWord(s[..n])
    ensures n < |s| ==> IsSpace(s[n])
  {
    if |s| == 0 || IsSpace(s[0]) then 0
    else
      var m := WordLength(s[1..]);
      assert s[..1 + m] == [s[0]] + s[1..][..m];
      1 + m
  }

  /** Ruby `String#strip`: the text between the leading and the trailing
      whitespace; the prefix before it and the suffix after it are blank. */
  function Strip(s: string): (r: string)
    ensures r == [] <==> IsBlank(s)
    ensures IsStripped(r)
    ensures r != [] ==>
              && LeadingSpaces(s) + |r| <= |s|
              && s[LeadingSpaces(s)..LeadingSpaces(s) + |r|] == r
              && IsBlank(s[LeadingSpaces(s) + |r|..])
  {
    var lead := LeadingSpaces(s);
    if lead == |s| then
      assert IsBlank(s) by { assert s[..lead] == s; }
      []
    else
      var trail := TrailingSpaces(s);
      assert trail < |s| - lead by {
        assert !IsSpace(s[lead]);
        assert forall i :: |s| - trail <= i < |s| ==> IsSpace(s[i]) by {
          forall i | |s| - trail <= i < |s| ensures IsSpace(s[i]) {
            assert s[|s| - trail..][i - (|s| - trail)] == s[i];
          }
        }
      }
      assert !IsBlank(s) by { assert !IsSpace(s[lead]); }
      s[lead..|s| - trail]
  }

  /** The leading whitespace of a padded text is the padding before it. */
  lemma PaddedLead(p: string, t: string, q: string)
    requires IsBlank(p) && t != [] && !IsSpace(t[0])
    ensures LeadingSpaces(p + t + q) == |p|
  {
    var s := p + t + q;
    var lead := LeadingSpaces(s);
    assert !IsSpace(s[|p|]) by { assert s[|p|] == t[0]; }
  }

  /** The trailing whitespace of a padded text is the padding after it. */
  lemma PaddedTrail(p: string, t: string, q: string)
    requires IsBlank(q) && t != [] && !IsSpace(t[|t| - 1])
    ensures TrailingSpaces(p + t + q) == |q|
  {
    var s := p + t + q;
    var trail := TrailingSpaces(s);
    assert !IsSpace(s[|s| - 1 - |q|]) by { assert s[|s| - 1 - |q|] == t[|t| - 1]; }
  }

  /** Padding a stripped non-empty text with whitespace on both sides and
      stripping it again gives the text back. */
  lemma StripPadded(p: string, t: string, q: string)
    requires IsBlank(p) && IsBlank(q)
    requires t != [] && IsStripped(t)
    ensures Strip(p + t + q) == t
  {
    var s := p + t + q;
    PaddedLead(p, t, q);
    PaddedTrail(p, t, q);
    assert s[|p|..|s| - |q|] == t;
  }

  /** Stripping twice is stripping once. */
  lemma StripIdempotent(s: string)
    ensures Strip(Strip(s)) == Strip(s)
  {
    var r := Strip(s);
    if r != [] {
      StripPadded([], r, []);
      assert [] + r + [] == r;
    }
  }

  /** ASCII lower-casing of one character (Ruby 1.8 `downcase`). */
  function Lower(c: char): char {
    if 'A' <= c <= 'Z' then (c as int + 32) as char else c
  }

  /** Ruby `String#downcase`, ASCII letters only. */
  function Downcase(s: string): string {
    seq(|s|, i requires 0 <= i < |s| => Lower(s[i]))
  }

  /** `downcase` yields "on" exactly for the four spellings of "on" in any case. */
  lemma DowncaseOn(s: string)
    ensures Downcase(s) == "on" <==> s in {"on", "oN", "On", "ON"}
  {
    if Downcase(s) == "on" {
      assert |s| == 2;
      assert Downcase(s)[0] == Lower(s[0]) && Downcase(s)[1] == Lower(s[1]);
      assert Lower(s[0]) == 'o' && Lower(s[1]) == 'n';
      assert s[0] == 'o' || s[0] == 'O';
      assert s[1] == 'n' || s[1] == 'N';
      assert s == [s[0], s[1]];
    }
  }

  /** `downcase` yields "off" exactly for the eight spellings of "off" in any case. */
  lemma DowncaseOff(s: string)
    ensures Downcase(s) == "off" <==> (|s| == 3 && s[0] in "oO" && s[1] in "fF" && s[2] in "fF")
  {
    if Downcase(s) == "off" {
      assert |s| == 3;
      assert Downcase(s)[0] == Lower(s[0]) && Downcase(s)[1] == Lower(s[1]) && Downcase(s)[2] == Lower(s[2]);
      assert Lower(s[0]) == 'o' && Lower(s[1]) == 'f' && Lower(s[2]) == 'f';
    }
    if |s| == 3 && s[0] in "oO" && s[1] in "fF" && s[2] in "fF" {
      assert Downcase(s) == [Lower(s[0]), Lower(s[1]), Lower(s[2])];
    }
  }

  /** Ruby `str.split(/\s+/, 2)` on a string without leading whitespace: the
      first word, and everything after the whitespace run that follows it
      (inner whitespace kept), or nothing when the string is a single word. */
  function SplitOnce(s: string): (r: (string, Option<string>))
    ensures IsWord(r.0) && |r.0| <= |s| && s[..|r.0|] == r.0
    ensures r.1.None? <==> IsWord(s)
    ensures r.1.None? ==> r.0 == s
    ensures r.1.Some? ==>
              var gap := |s| - |r.0| - |r.1.value|;
              && 0 < gap
              && s == r.0 + s[|r.0|..|r.0| + gap] + r.1.value
              && IsBlank(s[|r.0|..|r.0| + gap])
              && (r.1.value == [] || !IsSpace(r.1.value[0]))
  {
    var w := WordLength(s);
    if w == |s| then
      assert s[..w] == s;
      (s, None)
    else
      var rest := s[w..];
      var g := LeadingSpaces(rest);
      assert g > 0;
      var p := rest[g..];
      assert s == s[..w] + rest[..g] + p;
      assert !IsWord(s) by { assert IsSpace(s[w]); }
      (s[..w], Some(p))
  }

  /** Splitting a word, a whitespace run and a remainder that starts with a
      non-space gives the word and the remainder back. */
  lemma {:induction false} SplitOnceJoin(u: string, gap: string, p: string)
    requires IsWord(u) && gap != [] && IsBlank(gap)
    requires p == [] || !IsSpace(p[0])
    ensures SplitOnce(u + gap + p) == (u, Some(p))
  {
    var s := u + gap + p;
    var w := WordLength(s);
    assert IsSpace(s[|u|]) by { assert s[|u|] == gap[0]; }
    assert forall i :: 0 <= i < w ==> !IsSpace(s[i]) by {
      forall i | 0 <= i < w ensures !IsSpace(s[i]) { assert s[..w][i] == s[i]; }
    }
    assert forall i :: 0 <= i < |u| ==> !IsSpace(s[i]) by {
      forall i | 0 <= i < |u| ensures !IsSpace(s[i]) { assert s[i] == u[i]; }
    }
    assert w == |u|;
    var rest := s[w..];
    assert rest == gap + p;
    var g := LeadingSpaces(rest);
    assert forall i :: 0 <= i < g ==> IsSpace(rest[i]) by {
      forall i | 0 <= i < g ensures IsSpace(rest[i]) { assert rest[..g][i] == rest[i]; }
    }
    assert forall i :: 0 <= i < |gap| ==> IsSpace(rest[i]) by {
      forall i | 0 <= i < |gap| ensures IsSpace(rest[i]) { assert rest[i] == gap[i]; }
    }
    if p != [] {
      assert !IsSpace(rest[|gap|]) by { assert rest[|gap|] == p[0]; }
    }
    assert g == |gap|;
    assert rest[g..] == p;
    assert s[..w] == u;
  }

  /** Ruby `Array#join(sep)` on a flat array of strings. */
  function Join(parts: seq<string>, sep: string): string {
    if |parts| == 0 then ""
    else if |parts| == 1 then parts[0]
    else parts[0] + sep + Join(parts[1..], sep)
  }

  function Digit(d: nat): char
    requires d < 10
  {
    "0123456789"[d]
  }

  /** Decimal rendering of a natural number (`"#{n}"`). */
  function NatToString(n: nat): (r: string)
    ensures r != []
    ensures forall i :: 0 <= i < |r| ==> '0' <= r[i] <= '9'
  {
    if n < 10 then [Digit(n)] else NatToString(n / 10) + [Digit(n % 10)]
  }

  /** The number a string of decimal digits denotes. */
  function DigitsValue(s: string): nat
    requires forall i :: 0 <= i < |s| ==> '0' <= s[i] <= '9'
  {
    if s == [] then 0 else 10 * DigitsValue(s[..|s| - 1]) + (s[|s| - 1] as int - '0' as int)
  }

  /** Reading back the decimal rendering gives the number. */
  lemma {:induction false} NatToStringValue(n: nat)
    ensures DigitsValue(NatToString(n)) == n
  {
    if n >= 10 {
      NatToStringValue(n / 10);
      var s := NatToString(n);
      assert s[..|s| - 1] == NatToString(n / 10);
    }
  }

  /** A number printed between two texts reads back from its digits, and
      the text after it follows right behind the digits. */
  lemma NumberReadsBack(front: string, n: nat, back: string)
    ensures var t := front + NatToString(n) + back;
            var k := |NatToString(n)|;
            && |front| + k <= |t|
            && t[..|front|] == front
            && t[|front|..|front| + k] == NatToString(n)
            && DigitsValue(t[|front|..|front| + k]) == n
            && t[|front| + k..] == back
  {
    var t := front + NatToString(n) + back;
    assert t[|front|..|front| + |NatToString(n)|] == NatToString(n);
    NatToStringValue(n);
  }

  /** `t` occurs in `s` at position `i`. */
  predicate OccursAt(t: string, s: string, i: nat) {
    i + |t| <= |s| && s[i..i + |t|] == t
  }

  /** The middle of three concatenated strings occurs right after the first. */
  lemma OccursBetween(a: string, b: string, c: string)
    ensures OccursAt(b, a + b + c, |a|)
  {
    assert (a + b + c)[|a|..|a| + |b|] == b;
  }

  /** `t` occurs somewhere in `s`. */
  predicate Contains(t: string, s: string) {
    exists k: nat | k <= |s| :: OccursAt(t, s, k)
  }

  /** `s` ends with `t`. */
  predicate EndsWith(t: string, s: string) {
    |t| <= |s| && s[|s| - |t|..] == t
  }

  /** An occurrence moves right by the length of any text put in front. */
  lemma OccursShift(t: string, s: string, i: nat, front: string)
    requires OccursAt(t, s, i)
    ensures OccursAt(t, front + s, |front| + i)
  {
    assert (front + s)[|front| + i..|front| + i + |t|] == s[i..i + |t|];
  }

  /** Joining puts the first part, then the separator, at the start. */
  lemma JoinStarts(parts: seq<string>, sep: string)
    requires |parts| > 1
    ensures OccursAt(parts[0] + sep, Join(parts, sep), 0)
  {
    var rest := Join(parts[1..], sep);
    assert Join(parts, sep) == (parts[0] + sep) + rest;
    assert ((parts[0] + sep) + rest)[..|parts[0] + sep|] == parts[0] + sep;
  }

  /** Every part occurs in the joined text. */
  lemma {:induction false} JoinHasParts(parts: seq<string>, sep: string, i: nat)
    requires i < |parts|
    ensures Contains(parts[i], Join(parts, sep))
    decreases i
  {
    if |parts| == 1 {
      assert OccursAt(parts[0], Join(parts, sep), 0);
    } else if i == 0 {
      JoinStarts(parts, sep);
      assert OccursAt(parts[0], Join(parts, sep), 0);
    } else {
      JoinHasParts(parts[1..], sep, i - 1);
      var k: nat :| k <= |Join(parts[1..], sep)| && OccursAt(parts[1..][i - 1], Join(parts[1..], sep), k);
      OccursShift(parts[i], Join(parts[1..], sep), k, parts[0] + sep);
      assert Join(parts, sep) == (parts[0] + sep) + Join(parts[1..], sep);
    }
  }

  /** The joined text ends with the last part. */
  lemma {:induction false} JoinEnds(parts: seq<string>, sep: string)
    requires |parts| > 0
    ensures EndsWith(parts[|parts| - 1], Join(parts, sep))
  {
    if |parts| > 1 {
      JoinEnds(parts[1..], sep);
      var front := parts[0] + sep;
      var rest := Join(parts[1..], sep);
      assert Join(parts, sep) == front + rest;
      assert (front + rest)[|front + rest| - |parts[|parts| - 1]|..] == rest[|rest| - |parts[|parts| - 1]|..];
    }
  }
}

=== FILE: users.dfy ===
/** The persistent user record the commands read and write, the single-field
    writes they perform (`update_attributes`, `active=`, `track`, `untrack`),
    and the `logged_in?` test. */
module Users {
  import opened Options
  import opened Text
  import opened Ordering

  /** A Jabber user of the bot. The password is stored as an opaque string. */
  datatype User = User(
    jid: string,
    status: string,
    active: bool,
    autoPost: bool,
    language: Option<string>,
    username: Option<string>,
    password: Option<string>,
    friendTimelineId: Option<int>,
    tracks: seq<string>)

  /** One write to the user record. */
  datatype Update =
    | SetActive(active: bool)
    | SetAutoPost(autoPost: bool)
    | SetLanguage(language: Option<string>)
    | SetCredentials(username: Option<string>, password: Option<string>)
    | SetFriendTimeline(id: Option<int>)
    | AddTrack(query: string)
    | RemoveTrack(query: string)

  /** The parts of the record a write can change. */
  datatype Field = ActiveField | AutoPostField | LanguageField | CredentialsField | TimelineField | TracksField

  function FieldOf(u: Update): Field {
    match u
    case SetActive(_) => ActiveField
    case SetAutoPost(_) => AutoPostField
    case SetLanguage(_) => LanguageField
    case SetCredentials(_, _) => CredentialsField
    case SetFriendTimeline(_) => TimelineField
    case AddTrack(_) => TracksField
    case RemoveTrack(_) => TracksField
  }

  /** `xs` without any occurrence of `x`. */
  function Without(xs: seq<string>, x: string): (r: seq<string>)
    ensures forall y :: y in r <==> y in xs && y != x
    ensures |r| <= |xs|
    ensures x !in xs ==> r == xs
  {
    if |xs| == 0 then []
    else
      var rest := Without(xs[1..], x);
      assert xs == [xs[0]] + xs[1..];
      if xs[0] == x then rest else [xs[0]] + rest
  }

  lemma {:induction false} WithoutKeepsDistinct(xs: seq<string>, x: string)
    requires Distinct(xs)
    ensures Distinct(Without(xs, x))
  {
    if |xs| > 0 {
      WithoutKeepsDistinct(xs[1..], x);
      var rest := Without(xs[1..], x);
      if xs[0] != x {
        assert xs[0] !in rest by { assert forall k :: 1 <= k < |xs| ==> xs[k] != xs[0]; assert forall y :: y in xs[1..] ==> y != xs[0]; }
        var r := [xs[0]] + rest;
        forall i, j | 0 <= i < j < |r| ensures r[i] != r[j] {
          if i == 0 { assert r[j] == rest[j - 1]; assert rest[j - 1] in rest; }
        }
      }
    }
  }

  /** The record after one write; the other fields are untouched. Tracking a
      query already tracked, or untracking one not tracked, changes nothing. */
  function Apply(user: User, u: Update): (r: User)
    ensures r.jid == user.jid && r.status == user.status
    ensures r.active == (if u.SetActive? then u.active else user.active)
    ensures r.autoPost == (if u.SetAutoPost? then u.autoPost else user.autoPost)
    ensures r.language == (if u.SetLanguage? then u.language else user.language)
    ensures r.username == (if u.SetCredentials? then u.username else user.username)
    ensures r.password == (if u.SetCredentials? then u.password else user.password)
    ensures r.friendTimelineId == (if u.SetFriendTimeline? then u.id else user.friendTimelineId)
    ensures u.AddTrack? ==> |user.tracks| <= |r.tracks| <= |user.tracks| + 1 && r.tracks[..|user.tracks|] == user.tracks
    ensures u.AddTrack? ==> forall q :: q in r.tracks <==> q in user.tracks || q == u.query
    ensures u.RemoveTrack? ==> forall q :: q in r.tracks <==> q in user.tracks && q != u.query
    ensures !u.AddTrack? && !u.RemoveTrack? ==> r.tracks == user.tracks
  {
    match u
    case SetActive(a) => user.(active := a)
    case SetAutoPost(a) => user.(autoPost := a)
    case SetLanguage(l) => user.(language := l)
    case SetCredentials(n, p) => user.(username := n, password := p)
    case SetFriendTimeline(id) => user.(friendTimelineId := id)
    case AddTrack(q) => if q in user.tracks then user else user.(tracks := user.tracks + [q])
    case RemoveTrack(q) => user.(tracks := Without(user.tracks, q))
  }

  /** `logged_in?`: both the username and the password are present and not blank. */
  predicate LoggedIn(user: User) {
    !IsBlankOpt(user.username) && !IsBlankOpt(user.password)
  }

  /** Logged in means both credentials are present and something other than
      whitespace remains of each once stripped. */
  lemma LoggedInByStrip(user: User)
    ensures LoggedIn(user) <==>
              && user.username.Some? && Strip(user.username.value) != []
              && user.password.Some? && Strip(user.password.value) != []
  {
  }

  /** What every command keeps true of a record: a language, when set, has
      two characters, and no query is tracked twice. */
  predicate ValidUser(user: User) {
    && (user.language.None? || |user.language.value| == 2)
    && Distinct(user.tracks)
  }

  /** The writes a command performs, as far as they touch `ValidUser`. */
  predicate ValidUpdate(u: Update) {
    u.SetLanguage? ==> (u.language.None? || |u.language.value| == 2)
  }

  /** A valid write keeps a valid record valid and sets exactly its field. */
  lemma ApplyKeepsValid(user: User, u: Update)
    requires ValidUser(user) && ValidUpdate(u)
    ensures ValidUser(Apply(user, u))
    ensures u.AddTrack? ==> u.query in Apply(user, u).tracks
    ensures u.RemoveTrack? ==> u.query !in Apply(user, u).tracks
  {
    match u
    case AddTrack(q) =>
      if q !in user.tracks {
        var t := user.tracks + [q];
        forall i, j | 0 <= i < j < |t| ensures t[i] != t[j] {
          if j == |t| - 1 { assert t[i] == user.tracks[i]; assert user.tracks[i] in user.tracks; }
        }
      }
    case RemoveTrack(q) =>
      WithoutKeepsDistinct(user.tracks, q);
    case _ =>
  }
}
